=== FILE: README.md ===
# trek-cli core in Dafny

A model of the logic at the centre of `trek`, the command-line client of the
Trek debug-session service, together with proofs about it. It covers:

- **Device login** (`DeviceFlow`, `Login`, `Credentials`). This is the OAuth 2.0
  Device Authorization Grant (RFC 8628, sections 3.1–3.5) as `trek auth login`
  runs it against the identity provider:
  - the challenge request;
  - the token poller with its 5-second floor, its `slow_down` back-off and its
    deadline;
  - the classification of token answers;
  - the credential cache with its validity window, `whoami` and an idempotent
    `logout`.
- **Configuration** (`Config`). Settings resolve in the order flag, then
  environment variable, then config file. The file only fills settings that
  are still empty, and `getClient` checks the four settings in a fixed order.
- **Listing** (`Listing`). This covers column truncation, the session status
  and the selector text. Custom selector entries come from a Go map, so the
  iteration order is a parameter. The proof shows that the order changes the
  text only by permuting those entries.
- **Session create** (`SessionCreate`). This covers `key=value` label parsing,
  where the last label with a key wins, and the selector-must-name-a-target
  rule. It also covers the conversion of the TTL to whole seconds.
- **Policies** (`Policies`). `formatDuration`'s choice of unit and singular
  form. A reader, `ReadDuration`, parses the text back.
- **Audit** (`Audit`). The `--since` filter: which events it keeps, in what
  order, and which error wins when several apply.

The model uses these conventions:

- Time is an integer parameter. The poller and the credentials count seconds;
  audit events and TTLs count nanoseconds, like Go's `time.Duration`.
- Everything that crosses a process boundary is a parameter. That covers HTTP
  replies, the decoded JSON or YAML, the environment, the credential file, and
  how a file write fails.
- The poller is a pure step function over a trace of events. Each event is
  one of:
  - a cancellation;
  - a transport failure;
  - a reply with the extra seconds it took.

  `Run` consumes the trace. It returns `Polling` if the trace ends before the
  loop does.

Points where the code's behaviour is easy to misread:

- The poll deadline is measured from the start of polling. It is not measured
  from the start of login.
- The deadline is checked before the wait. The last request can therefore go
  out up to one interval after the deadline; `DeviceFlow.LateRequestExample`
  exhibits this.
- A credential is still valid at exactly `expires_at`. The code tests
  `now.After(expiresAt)`, so it is invalid only after that instant.
- A token reply whose body is empty or not JSON at all is not a protocol
  error. It counts as a grant with an empty token, because the decode error is
  ignored and the zero value has an empty `error` field.
- A failed save can lose the session stored before. The file is truncated
  when it is opened, so a write that fails after that leaves it unreadable.
- A failed save can also leave the new credential in place. The write reports
  an error from closing the file even after the whole document was written;
  the login then fails, yet the new credential loads.
- The stored expiry is the time at which polling ended plus `expires_in`.

## Model

| member | source | states |
|---|---|---|
| DeviceFlow.Start | cmd/auth.go:199-204 | the effective interval is the advertised one raised to at least 5 s, and the deadline lies `expires_in` seconds after the start of polling |
| DeviceFlow.Classify | cmd/auth.go:233-247 | empty error code ⇔ grant of that reply; `authorization_pending` ⇔ keep polling; `slow_down` ⇔ back off; `expired_token` ⇔ code expired; `access_denied` ⇔ denied; any other code ⇔ provider error carrying code and description |
| DeviceFlow.ProviderErrorVerbatim | cmd/auth.go:246 | the message of an unknown error code splits at its first colon into exactly that code and ` ` + description |
| DeviceFlow.ErrorText | cmd/auth.go:241-250 | the text is empty only for a grant; it contains a colon exactly for a provider error, which reads as the code, `: ` and the description; `device code expired`, `access denied by user`, `context canceled` and `authentication timed out` each name exactly one outcome |
| DeviceFlow.Step | cmd/auth.go:207-247 | a cancellation ends the run with nothing sent; otherwise one request is logged, sent one interval after the check, and the clock moves by the interval and the latency; the run goes on exactly after a transport failure, `authorization_pending` or `slow_down`, the latter adding 5 s to the interval; a terminal reply ends the run with its classification |
| DeviceFlow.Run | cmd/auth.go:206-250 | the deadline never moves and the interval never shrinks; the run only appends to the history, at most one request per event; it is still polling only while the clock is before the deadline; a timeout happens only once the clock has reached the deadline; a grant carries an empty error code |
| DeviceFlow.Poll | cmd/auth.go:196-250 | the deadline is start + `expires_in`; the interval is at least 5 s and at least the advertised one; at most one request per event; a non-positive `expires_in` times out before any request; a grant carries an empty error code |
| DeviceFlow.RecordKeepsReachable | cmd/auth.go:206-227 | one more attempt keeps the history invariant: it was checked before the deadline, it waited the current interval, and the clock moved at least 5 s |
| DeviceFlow.ReplyKeepsReachable | cmd/auth.go:224-247 | a reply keeps the invariant; a terminal answer ends the run on that answer, and otherwise the clock advances by at least 5 s |
| DeviceFlow.LostKeepsReachable | cmd/auth.go:224-227 | a transport failure keeps the invariant, leaves the interval unchanged and continues polling |
| DeviceFlow.StepKeepsReachable | cmd/auth.go:206-247 | every loop iteration preserves the invariant and ends only as the loop in the source ends |
| DeviceFlow.RunKeepsReachable | cmd/auth.go:206-250 | over any trace the invariant holds and the run ended by cancellation, a terminal answer, or the clock passing the deadline |
| DeviceFlow.PollReachable | cmd/auth.go:196-250 | the whole poller from its start state satisfies the invariant and the ending rules |
| DeviceFlow.WaitCountsSlowDowns | cmd/auth.go:238-240 | in a chained history each wait is the first wait plus 5 s per earlier `slow_down` |
| DeviceFlow.WaitsFollowSlowDowns | cmd/auth.go:199-240 | the first wait is the effective start interval; each later wait grows by exactly 5 s after `slow_down` and stays equal otherwise; every wait is at least 5 s and at least the advertised interval |
| DeviceFlow.RequestsSpacedAndBounded | cmd/auth.go:204-210 | the deadline is start + `expires_in`; every request was preceded by a deadline check that passed; no request goes out later than one wait past the deadline; consecutive requests are at least one wait apart |
| DeviceFlow.NonTerminalTraceNeverGrants | cmd/auth.go:224-250 | if every event is pending, slow-down or a transport failure, the poller never grants: it keeps polling or times out |
| DeviceFlow.NonTerminalTraceTimesOut | cmd/auth.go:204-250 | such a trace long enough to cover `expires_in` at 5 s per step ends in the timeout |
| DeviceFlow.PendingForeverTimesOut | cmd/auth.go:236-250 | a provider that only answers `authorization_pending` never yields a token and, once `expires_in` has elapsed, yields the timeout |
| DeviceFlow.CancelSendsNothingMore | cmd/auth.go:207-209 | a cancelled run stopped at the first cancellation in the trace and sent exactly one request per earlier event, none for or after the cancellation |
| DeviceFlow.GrantIsLastAnswer | cmd/auth.go:233-235 | a granted run returns the reply to its last request, whose error code is empty, and every earlier answer said to keep polling |
| DeviceFlow.MalformedReplyIsGrant | cmd/auth.go:229-235 | a token body that is empty or not JSON at all, read as the zero reply, is accepted as a grant with an empty access token |
| DeviceFlow.LateRequestExample | cmd/auth.go:204-210 | with `expires_in` 6, interval 5 and two pending answers, the poll times out after two requests, the second sent 4 s after the deadline |
| Credentials.Load | cmd/auth.go:274-288 | a credential is loaded exactly when the file holds a decodable one |
| Credentials.Save | cmd/auth.go:258-271 | saving succeeds exactly when the write succeeds, and a saved credential loads back unchanged; a write that fails before opening the file leaves it as it was, one that fails after truncating it leaves nothing loadable, and one that fails only on closing leaves the new credential loadable |
| Credentials.GetAccessToken | cmd/auth.go:291-302 | a token is returned exactly when a credential loads and `now` is not after its expiry; otherwise the result is empty |
| Credentials.Whoami | cmd/auth.go:144-162 | not authenticated exactly when no credential loads; session expired exactly when it loads and now is after its expiry; otherwise authenticated with the stored expiry, and with the e-mail exactly when it is non-empty |
| Credentials.WhoamiAgreesWithGetAccessToken | cmd/auth.go:144-162 | `whoami` reports not authenticated ⇔ no credential, session expired ⇔ now is after the expiry, authenticated (with that expiry) otherwise; when authenticated, `GetAccessToken` hands out the stored token, and any non-empty token from it means authenticated |
| Credentials.Logout | cmd/auth.go:134-142 | a successful logout leaves no credential file; it fails exactly when the file exists and removing it fails |
| Credentials.LogoutIdempotent | cmd/auth.go:134-138 | a second logout after a successful one always succeeds, and afterwards no token is available |
| Login.ResolveLoginConfig | cmd/auth.go:83-96 | domain and client id each come from the flag, else the environment; the run fails with the configuration error exactly when either stays empty |
| Login.RequestChallenge | cmd/auth.go:164-194 | the challenge succeeds exactly on a 200 reply that decodes, and then it is that decoded challenge; a non-200 reply fails carrying the reply body; a request that never completes fails as a network error, and a 200 reply that does not decode fails as a protocol error |
| Login.MissingConfigStopsEarly | cmd/auth.go:94-96 | without a domain or a client id the login fails with the configuration error, leaves the credential file as it was, and does so whatever the provider, the trace or the file write would have done |
| Login.RunLogin | cmd/auth.go:82-132 | with the configuration resolved, a failed challenge fails the login with that failure, and a poll that ends without a grant fails it with that outcome; a grant followed by a good write succeeds and stores the credential for the grant; a grant followed by a failed write fails with the save error, leaving the file as it was, unloadable, or holding the new credential according to where the write failed; a save error arises only that way; a login still polling or failing before the save leaves the file as it was; a stored credential has an empty e-mail and loads back as the one returned |
| Login.InterruptedSaveLosesSession | cmd/auth.go:119-128 | when the grant arrives but the write fails after truncating the file, the login fails and no token is handed out afterwards, even if one was stored before |
| Login.SuccessfulLoginStoresGrant | cmd/auth.go:114-131 | a successful login stores the granted access and refresh tokens, with expiry = end of polling + `expires_in`; `GetAccessToken` returns that token until the expiry and nothing after it |
| Login.DeniedLoginWritesNothing | cmd/auth.go:114-118 | a user denial ends the login as a denial and writes no credential |
| Login.PendingThenGrantExample | cmd/auth.go:114-124 | with a 5 s interval and 30 s expiry, four pending answers then a grant with `expires_in` 3600 make the login succeed and store a credential expiring at 3625 when polling started at 0 |
| Config.FirstNonEmpty | cmd/root.go:51-63 | the first non-empty candidate: empty exactly when every candidate is empty, and otherwise one of the candidates |
| Config.LoadConfigFile | cmd/root.go:77-111 | an unread or unparsable file changes nothing; a parsed file never overrides a set value and fills each empty one with the file's value |
| Config.LoadConfigFileIdempotent | cmd/root.go:99-110 | loading the same file twice has the effect of loading it once |
| Config.InitConfig | cmd/root.go:51-75 | each of endpoint, token, org and env is the first non-empty of flag, environment variable and config file |
| Config.GetClient | cmd/root.go:113-128 | a client is built exactly when all four settings are set, from those four values; otherwise the reported setting is one that is empty, the first in the order endpoint, token, org, env |
| Config.MissingMessageIsAccurate | cmd/root.go:113-125 | when no client can be built from resolved settings, the reported setting is empty, and so are its flag, the configuration file's value and the environment variable that its error message ends by naming |
| Listing.Truncate | cmd/list.go:143-148 | the result never exceeds the width; a short string is unchanged; a long one keeps its first width − 3 characters followed by `...` |
| Listing.TruncateIdempotent | cmd/list.go:143-148 | truncating twice equals truncating once |
| Listing.SessionStatus | cmd/list.go:102-105 | `expired` exactly when now is after the expiry, `active` otherwise |
| Listing.StatusMonotone | cmd/list.go:102-105 | the status is always `active` or `expired`, and as the clock advances it can only go from `active` to `expired`, never back |
| Listing.PresentFixed | cmd/list.go:119-131 | the fixed parts are `user:`, `tenant:`, `req:`, `route:` in that order, each present exactly when its field is non-empty |
| Listing.CustomPartsEntries | cmd/list.go:132-136 | every custom entry shows up as `key:value` whatever the iteration order |
| Listing.CustomOrderIrrelevant | cmd/list.go:132-136 | any two iteration orders of the custom map give the same custom parts up to permutation |
| Listing.AppendCustomParts | cmd/list.go:132-136 | the loop appends one `key:value` part per key, in iteration order, after the parts already present |
| Listing.JoinedPartsAreNotEmptyText | cmd/list.go:137-140 | a non-empty list of parts whose first part contains a colon, as every selector part does, never joins to the `(empty)` placeholder |
| Listing.FormatSelector | cmd/list.go:118-141 | the text is `(empty)` exactly when no target and no custom entry is set; otherwise it is the fixed parts, then the custom parts, joined with `, ` |
| SessionCreate.LabelRoundTrip | cmd/start.go:102-106 | splitting `key=value` at its first `=` gives back the key and the value, even when the value itself contains `=` |
| SessionCreate.AssignSize | cmd/start.go:100-107 | the label map has no more keys than there are labels |
| SessionCreate.AssignKeys | cmd/start.go:106 | the map's keys are exactly the labels' keys |
| SessionCreate.AssignLastWins | cmd/start.go:106 | for each key, the value is the one from the last label with that key |
| SessionCreate.AssignDescribes | cmd/start.go:100-107 | the assigned map holds exactly the labels' keys, each with the value of the last label carrying it |
| SessionCreate.ParseLabels | cmd/start.go:96-109 | no labels gives no map and no error; the call fails exactly when some label lacks `=`, naming the first such label; otherwise the map is as above |
| SessionCreate.TtlSeconds | cmd/start.go:74 | the TTL in whole seconds, truncated toward zero |
| SessionCreate.TtlSecondsExamples | cmd/start.go:74 | 15 min → 900, 1 h → 3600, 30 s → 30, 90 min → 5400 |
| SessionCreate.PrepareCreate | cmd/start.go:49-77 | missing settings are reported first, then a selector without user, request, tenant or route, then a bad label, which is reported exactly when some label lacks `=` and names the first such label; otherwise the request carries those four targets, the TTL seconds and the parsed labels, mapping each key to the value of its last label |
| Policies.FormatDuration | cmd/policies.go:70-87 | every duration reads back as a count in canonical decimal, a space and a unit word: the count is the duration truncated to the largest unit reached (the exact seconds below a minute), and the word is singular only for one hour or one minute, never for seconds |
| Policies.HourExamples | cmd/policies.go:72-78 | 3600 → `1 hour` and 5400 → `1 hour` |
| Policies.PluralHoursExample | cmd/policies.go:77 | 7200 → `2 hours` |
| Policies.MinuteExample | cmd/policies.go:79-83 | 60 → `1 minute` |
| Policies.SecondsExample | cmd/policies.go:86 | 45 → `45 seconds` |
| Strings.IntToStringRoundTrip | cmd/policies.go:77 | the decimal text of any integer parses back to that integer |
| Strings.SplitAtFirst | cmd/start.go:102 | the split exists exactly when the separator occurs; the head has no separator, and head, separator and tail rebuild the input |
| Strings.SplitAtFirstOfJoined | cmd/start.go:102 | splitting a head without the separator, plus the separator, plus any tail returns that head and tail |
| Audit.Since | cmd/audit.go:73-91 | the filter keeps no more events than were fetched, and every kept event was created strictly after the cutoff |
| Audit.SinceMembership | cmd/audit.go:73-91 | an event is kept exactly when it was fetched and created strictly after the cutoff |
| Audit.SinceAppend | cmd/audit.go:73-91 | filtering a concatenation filters each part |
| Audit.SinceKeepsOrder | cmd/audit.go:73-91 | the kept events sit at strictly increasing positions of the fetched list, and every newer event is among them |
| Audit.FilterSince | cmd/audit.go:64-91 | the filter loop keeps exactly the newer events, in fetched order |
| Audit.NoneNewer | cmd/audit.go:92-95 | nothing is kept exactly when no fetched event is newer than the cutoff |
| Audit.Rows | cmd/audit.go:120-128 | one row per event, in order, with its creation time, action, target type and actor, and the target id truncated to 28 characters |
| Audit.RunAuditList | cmd/audit.go:40-131 | missing settings first, then an unparsable `--since` (whatever the fetch would return), then a fetch failure, which is reported whenever the first two pass. Without `--since` every event is listed in fetched order, with an empty-list message exactly for no events. With `--since d` the cutoff is now − d, exactly the newer events are listed, and no newer event gives a report, not an error |

## Left out

- HTTP requests, JSON decoding and YAML parsing are not modelled. Replies, decoded bodies and parsed config files are parameters; a failed decode is a parameter value.
- The request-building error inside the poll loop (cmd/auth.go:218-221) is not modelled. The same domain has already produced a valid URL for the challenge request, so it cannot arise there.
- Wall-clock time, `time.After` and `context` become an integer clock and a `Cancel` event. The 30-second per-command timeouts are left out. Cancellation is modelled although `runLogin` passes `context.Background()`, which is never cancelled.
- Filesystem details are left out: the credential path and the 0700 and 0600 permissions. The file is `Absent`, `Corrupt` or `Stored`. A write succeeds, fails before the file is opened, fails after truncating it, or fails on closing after the whole document was written; a remove fails or succeeds.
- Printing, table layout, colours, cobra flags and help text are left out. That includes the wording of most error messages, `%q` quoting and time formatting. Outcomes are datatypes. Message texts are modelled only where a member returns them: the poll errors of `DeviceFlow.ErrorText`, the `getClient` messages of `Config.MissingSetting`, and the remove error of `Credentials.Logout`.
- `trek.IsEmptySelector` belongs to the client library and is not part of this model. It is taken to mean that user, request, tenant and route are all empty, which is what the create tests exercise.
- Remote calls are not modelled: `client.CreateSession`, `ListAuditEvents`, list/get/stop/extend/inspect/tokens and `env` switching. These commands are thin wrappers around the service API.
- `time.ParseDuration` is a library function and is not part of this model. Its result is a parameter of `Audit.RunAuditList`.
- Audit.RunAuditList: the `!sinceTime.IsZero()` guard is modelled as "`--since` was given". The two differ only if `now − d` is exactly the zero `time.Time`.
- Strings: Go strings are byte strings; each `char` stands for one byte, with no UTF-8 decoding.
- SessionCreate.TtlSeconds: `ttl.Seconds()` is a float64 division that is then truncated. The model uses exact integer truncation, which differs only when the float rounds across an integer, far beyond any realistic TTL.
- Policies.FormatDuration: `time.Duration(seconds) * time.Second` overflows 64 bits above about 292 years, and `Hours()` and `Minutes()` go through float64. The model uses exact integer division.
- Cumulative effect of `slow_down`: Go's `time.Duration` is 64-bit, so enough `slow_down` answers would overflow it. The model's interval is an unbounded integer.
- The source has no token-refresh flow: the refresh token is stored but never read. `runLogin` never sets the e-mail, so the stored e-mail is always empty and `whoami` never shows it; the model stores it empty too.
- The watch loop is left out.
- DeviceFlow.Start: the advertised interval and `expires_in` are multiplied by `time.Second` in 64-bit nanoseconds (cmd/auth.go:199, 204), which wraps for values above 9,223,372,036 seconds. With an interval of 9,223,372,037 the source polls every 5 s, and a wrapped `expires_in` can put the deadline in the past. The model's integers are unbounded.
- Login.CredentialFor: the stored expiry multiplies `expires_in` by `time.Second` in 64-bit nanoseconds (cmd/auth.go:123), which wraps for the same huge values. The model's expiry is the exact sum.

=== FILE: audit.dfy ===
/**
 `audit list`: fetches the organisation's audit events and, with `--since d`,
 keeps only those created strictly after `now - d`, in fetched order. Times
 are integer nanoseconds; `d` is the already-parsed duration (or `None` when
 the text does not parse), and the fetched page is a parameter.
 */
module Audit {
  import opened Wrappers
  import Config
  import Listing

  /** Width of the TARGET ID column. */
  const TargetIdWidth: nat := 28

  datatype AuditEvent = AuditEvent(
    id: string,
    action: string,
    targetType: string,
    targetId: string,
    actorUserId: string,
    createdAt: int)

  /** One printed row: time, action, target type, truncated target id, actor. */
  datatype AuditRow = AuditRow(time: int, action: string, targetType: string, targetId: string, actor: string)

  /** The events created strictly after `cutoff`, in their original order. */
  function Since(events: seq<AuditEvent>, cutoff: int): (kept: seq<AuditEvent>)
    ensures |kept| <= |events|
    ensures forall k :: 0 <= k < |kept| ==> kept[k].createdAt > cutoff
    decreases |events|
  {
    if |events| == 0 then []
    else (if events[0].createdAt > cutoff then [events[0]] else []) + Since(events[1..], cutoff)
  }

  /** An event is kept exactly when it was fetched and is strictly newer than the cutoff. */
  lemma {:induction false} SinceMembership(events: seq<AuditEvent>, cutoff: int, e: AuditEvent)
    ensures e in Since(events, cutoff) <==> e in events && e.createdAt > cutoff
    decreases |events|
  {
    if |events| > 0 {
      SinceMembership(events[1..], cutoff, e);
      assert events == [events[0]] + events[1..];
    }
  }

  /** Filtering a concatenation filters each part. */
  lemma {:induction false} SinceAppend(a: seq<AuditEvent>, b: seq<AuditEvent>, cutoff: int)
    ensures Since(a + b, cutoff) == Since(a, cutoff) + Since(b, cutoff)
    decreases |a|
  {
    if |a| == 0 {
      assert a + b == b;
    } else {
      assert (a + b)[0] == a[0] && (a + b)[1..] == a[1..] + b;
      SinceAppend(a[1..], b, cutoff);
    }
  }

  /** `kept` is read off `events` at the strictly increasing positions `pos`. */
  predicate Picks(events: seq<AuditEvent>, kept: seq<AuditEvent>, pos: seq<nat>) {
    && |pos| == |kept|
    && (forall k :: 0 <= k < |pos| ==> pos[k] < |events| && kept[k] == events[pos[k]])
    && (forall k, l :: 0 <= k < l < |pos| ==> pos[k] < pos[l])
  }

  /** Every event newer than the cutoff sits at one of the positions `pos`. */
  predicate Covers(events: seq<AuditEvent>, cutoff: int, pos: seq<nat>) {
    forall i :: 0 <= i < |events| && events[i].createdAt > cutoff ==> i in pos
  }

  function Shift(pos: seq<nat>): (r: seq<nat>)
    ensures |r| == |pos| && forall k :: 0 <= k < |r| ==> r[k] == pos[k] + 1
  {
    seq(|pos|, k requires 0 <= k < |pos| => pos[k] + 1)
  }

  lemma ShiftPicks(events: seq<AuditEvent>, kept: seq<AuditEvent>, pos: seq<nat>)
    requires |events| > 0 && Picks(events[1..], kept, pos)
    ensures Picks(events, kept, Shift(pos))
    ensures Picks(events, [events[0]] + kept, [0] + Shift(pos))
  {
    var q := [0] + Shift(pos);
    forall k | 0 <= k < |q|
      ensures q[k] < |events| && ([events[0]] + kept)[k] == events[q[k]]
    {
      if k > 0 { assert q[k] == pos[k - 1] + 1; }
    }
  }

  lemma ShiftCovers(events: seq<AuditEvent>, cutoff: int, pos: seq<nat>)
    requires |events| > 0 && Covers(events[1..], cutoff, pos)
    ensures events[0].createdAt > cutoff ==> Covers(events, cutoff, [0] + Shift(pos))
    ensures events[0].createdAt <= cutoff ==> Covers(events, cutoff, Shift(pos))
  {
    var sh := Shift(pos);
    forall i | 1 <= i < |events| && events[i].createdAt > cutoff
      ensures i in sh
    {
      assert events[1..][i - 1] == events[i];
      var k :| 0 <= k < |pos| && pos[k] == i - 1;
      assert sh[k] == i;
    }
    assert forall i :: i in sh ==> i in [0] + sh;
  }

  /** The kept events are the newer ones at strictly increasing positions of
      the fetched list, and every newer event is among those positions. */
  lemma {:induction false} SinceKeepsOrder(events: seq<AuditEvent>, cutoff: int) returns (pos: seq<nat>)
    ensures Picks(events, Since(events, cutoff), pos)
    ensures Covers(events, cutoff, pos)
    decreases |events|
  {
    if |events| == 0 {
      return [];
    }
    var rest := SinceKeepsOrder(events[1..], cutoff);
    ShiftPicks(events, Since(events[1..], cutoff), rest);
    ShiftCovers(events, cutoff, rest);
    if events[0].createdAt > cutoff {
      pos := [0] + Shift(rest);
    } else {
      pos := Shift(rest);
    }
  }

  /** The in-place filter loop of the command. */
  method FilterSince(events: seq<AuditEvent>, cutoff: int) returns (kept: seq<AuditEvent>)
    ensures kept == Since(events, cutoff)
    ensures forall e :: e in kept <==> e in events && e.createdAt > cutoff
  {
    kept := [];
    var i := 0;
    while i < |events|
      invariant 0 <= i <= |events|
      invariant kept == Since(events[..i], cutoff)
    {
      var e := events[i];
      SinceAppend(events[..i], [e], cutoff);
      assert events[..i + 1] == events[..i] + [e];
      if e.createdAt > cutoff {
        kept := kept + [e];
      }
      i := i + 1;
    }
    assert events[..i] == events;
    forall e
      ensures e in kept <==> e in events && e.createdAt > cutoff
    {
      SinceMembership(events, cutoff, e);
    }
  }

  function Row(e: AuditEvent): AuditRow {
    AuditRow(e.createdAt, e.action, e.targetType, Listing.Truncate(e.targetId, TargetIdWidth), e.actorUserId)
  }

  /** The printed rows, one per event, in order. */
  function Rows(events: seq<AuditEvent>): (rows: seq<AuditRow>)
    ensures |rows| == |events|
    ensures forall k :: 0 <= k < |rows| ==> rows[k].time == events[k].createdAt && |rows[k].targetId| <= TargetIdWidth
    ensures forall k :: 0 <= k < |rows| ==> rows[k].targetId == Listing.Truncate(events[k].targetId, TargetIdWidth)
    ensures forall k :: 0 <= k < |rows| ==>
              && rows[k].action == events[k].action
              && rows[k].targetType == events[k].targetType
              && rows[k].actor == events[k].actorUserId
  {
    seq(|events|, k requires 0 <= k < |events| => Row(events[k]))
  }

  /** What the command prints on success. */
  datatype AuditReport =
    | NoEvents
    | AllEvents(rows: seq<AuditRow>)
    | NoEventsSince(cutoff: int)
    | EventsSince(cutoff: int, rows: seq<AuditRow>)

  datatype AuditError =
    | ClientConfig(missing: Config.MissingSetting)
    | InvalidSince(text: string)
    | FetchFailed(message: string)

  /** `runAuditList`. Missing settings are reported first, then a `--since`
      text that is not a duration (before anything is fetched), then a failed
      fetch. Without `--since` every fetched event is listed; with it, exactly
      the events created after `now - d`, and an empty selection is a report,
      not an error. */
  function RunAuditList(
    settings: Config.Settings, since: string, duration: Option<int>, now: int,
    fetched: Result<seq<AuditEvent>, string>): (r: Result<AuditReport, AuditError>)
    ensures Config.GetClient(settings).Failure? ==> r == Failure(ClientConfig(Config.GetClient(settings).error))
    ensures Config.GetClient(settings).Success? && since != "" && duration.None? ==> r == Failure(InvalidSince(since))
    ensures r.Failure? && r.error.FetchFailed? ==> fetched == Failure(r.error.message)
    ensures (Config.GetClient(settings).Success? && (since == "" || duration.Some?) && fetched.Success?) ==> r.Success?
    ensures Config.GetClient(settings).Success? && (since == "" || duration.Some?) && fetched.Failure? ==>
              r == Failure(FetchFailed(fetched.error))
    ensures r.Success? && since == "" ==> r.value.NoEvents? || r.value.AllEvents?
    ensures r.Success? && since == "" ==>
              fetched.Success? && (r.value == NoEvents <==> |fetched.value| == 0)
              && (r.value.AllEvents? ==> r.value.rows == Rows(fetched.value))
    ensures r.Success? && since != "" ==>
              && fetched.Success? && duration.Some?
              && (r.value.NoEventsSince? || r.value.EventsSince?)
              && r.value.cutoff == now - duration.value
              && (r.value.NoEventsSince? <==> forall e :: e in fetched.value ==> e.createdAt <= now - duration.value)
              && (r.value.EventsSince? ==> r.value.rows == Rows(Since(fetched.value, r.value.cutoff)))
  {
    var client := Config.GetClient(settings);
    if client.Failure? then Failure(ClientConfig(client.error))
    else if since != "" && duration.None? then Failure(InvalidSince(since))
    else if fetched.Failure? then Failure(FetchFailed(fetched.error))
    else if since != "" then
      var cutoff := now - duration.value;
      var kept := Since(fetched.value, cutoff);
      NoneNewer(fetched.value, cutoff);
      if |kept| == 0 then Success(NoEventsSince(cutoff)) else Success(EventsSince(cutoff, Rows(kept)))
    else if |fetched.value| == 0 then Success(NoEvents)
    else Success(AllEvents(Rows(fetched.value)))
  }

  /** Nothing is kept exactly when no fetched event is newer than the cutoff. */
  lemma NoneNewer(events: seq<AuditEvent>, cutoff: int)
    ensures |Since(events, cutoff)| == 0 <==> forall e :: e in events ==> e.createdAt <= cutoff
  {
    if |Since(events, cutoff)| > 0 {
      SinceMembership(events, cutoff, Since(events, cutoff)[0]);
    } else {
      forall e | e in events
        ensures e.createdAt <= cutoff
      {
        SinceMembership(events, cutoff, e);
      }
    }
  }
}

=== FILE: config.dfy ===
/**
 Resolution of the API settings (endpoint, token, organisation, environment)
 shared by every REST command: command-line flag first, then environment
 variable, then the configuration file; and the ordered validation that
 precedes building an API client.
 */
module Config {
  import opened Wrappers

  const EndpointVar := "TREK_API_ENDPOINT"
  const TokenVar := "TREK_API_TOKEN"
  const OrgVar := "TREK_ORG_ID"
  const EnvVar := "TREK_ENV"

  /** The four settings; the configuration file carries the same four keys. */
  datatype Settings = Settings(endpoint: string, token: string, org: string, env: string)

  /** The settings in validation order. */
  function Fields(s: Settings): seq<string> {
    [s.endpoint, s.token, s.org, s.env]
  }

  /** The process environment; an unset variable reads as "". */
  type Environ = map<string, string>

  function Getenv(environ: Environ, name: string): string {
    if name in environ then environ[name] else ""
  }

  /** The first non-empty value of an ordered list of sources, "" when every source is empty. */
  function FirstNonEmpty(values: seq<string>): (r: string)
    ensures r == "" <==> forall i :: 0 <= i < |values| ==> values[i] == ""
    ensures r != "" ==> exists i :: 0 <= i < |values| && values[i] == r
                          && forall j :: 0 <= j < i ==> values[j] == ""
    decreases |values|
  {
    if |values| == 0 then ""
    else if values[0] != "" then values[0]
    else
      var r := FirstNonEmpty(values[1..]);
      assert forall i :: 1 <= i < |values| ==> values[i] == values[1..][i - 1];
      r
  }

  /** The first non-empty of two, and of three, candidates, spelled out. */
  lemma FirstNonEmptyOfTwo(a: string, b: string)
    ensures FirstNonEmpty([a, b]) == if a != "" then a else b
  {
    assert [a, b][1..] == [b];
    assert [b][1..] == [];
    assert FirstNonEmpty([b]) == b;
  }

  lemma FirstNonEmptyOfThree(a: string, b: string, c: string)
    ensures FirstNonEmpty([a, b, c]) == if a != "" then a else if b != "" then b else c
  {
    assert [a, b, c][1..] == [b, c];
    assert [b, c][1..] == [c];
    assert [c][1..] == [];
    assert FirstNonEmpty([c]) == c;
    assert FirstNonEmpty([b, c]) == if b != "" then b else c;
  }

  /** A flag value, or the environment variable when the flag was left empty. */
  function OrEnv(value: string, environ: Environ, name: string): string {
    if value == "" then Getenv(environ, name) else value
  }

  /** The environment fallback applied to the flag values. */
  function ApplyEnv(flags: Settings, environ: Environ): Settings {
    Settings(
      OrEnv(flags.endpoint, environ, EndpointVar),
      OrEnv(flags.token, environ, TokenVar),
      OrEnv(flags.org, environ, OrgVar),
      OrEnv(flags.env, environ, EnvVar))
  }

  /** What reading the configuration file produced. `NoConfigPath` is the case
      where no path was given and the home directory is unknown. */
  datatype ConfigSource = NoConfigPath | ReadFailed | ParseFailed | Parsed(file: Settings)

  /** A file value is taken only when the current value is empty and the file's is not. */
  function FillIfEmpty(current: string, fromFile: string): string {
    if current == "" && fromFile != "" then fromFile else current
  }

  /** Merge the configuration file into the current settings. A file that
      cannot be read or parsed changes nothing; a parsed file only fills
      settings that are still empty. */
  function LoadConfigFile(current: Settings, source: ConfigSource): (r: Settings)
    ensures !source.Parsed? ==> r == current
    ensures forall i :: 0 <= i < 4 && Fields(current)[i] != "" ==> Fields(r)[i] == Fields(current)[i]
    ensures forall i :: 0 <= i < 4 && Fields(current)[i] == "" ==> Fields(r)[i] == Fields(FileValues(source))[i]
  {
    match source
    case Parsed(file) =>
      Settings(
        FillIfEmpty(current.endpoint, file.endpoint),
        FillIfEmpty(current.token, file.token),
        FillIfEmpty(current.org, file.org),
        FillIfEmpty(current.env, file.env))
    case _ => current
  }

  /** The values a configuration source offers; none when it was not parsed. */
  function FileValues(source: ConfigSource): Settings {
    if source.Parsed? then source.file else Settings("", "", "", "")
  }

  /** `initConfig`: environment fallback, then the configuration file. Each
      setting comes from the flag, else its environment variable, else the
      configuration file: the first non-empty of the three sources. */
  function InitConfig(flags: Settings, environ: Environ, source: ConfigSource): (r: Settings)
    ensures r.endpoint == FirstNonEmpty([flags.endpoint, Getenv(environ, EndpointVar), FileValues(source).endpoint])
    ensures r.token == FirstNonEmpty([flags.token, Getenv(environ, TokenVar), FileValues(source).token])
    ensures r.org == FirstNonEmpty([flags.org, Getenv(environ, OrgVar), FileValues(source).org])
    ensures r.env == FirstNonEmpty([flags.env, Getenv(environ, EnvVar), FileValues(source).env])
  {
    var file := FileValues(source);
    FirstNonEmptyOfThree(flags.endpoint, Getenv(environ, EndpointVar), file.endpoint);
    FirstNonEmptyOfThree(flags.token, Getenv(environ, TokenVar), file.token);
    FirstNonEmptyOfThree(flags.org, Getenv(environ, OrgVar), file.org);
    FirstNonEmptyOfThree(flags.env, Getenv(environ, EnvVar), file.env);
    LoadConfigFile(ApplyEnv(flags, environ), source)
  }

  /** Merging the same file twice gives what merging it once gives. */
  lemma LoadConfigFileIdempotent(current: Settings, source: ConfigSource)
    ensures LoadConfigFile(LoadConfigFile(current, source), source) == LoadConfigFile(current, source)
  {
  }

  /** The setting `getClient` found missing. */
  datatype MissingSetting = MissingEndpoint | MissingToken | MissingOrg | MissingEnv {
    /** Position of the setting in validation order. */
    function Index(): nat {
      match this
      case MissingEndpoint => 0
      case MissingToken => 1
      case MissingOrg => 2
      case MissingEnv => 3
    }

    /** The environment variable that supplies the setting. */
    function Variable(): string {
      [EndpointVar, TokenVar, OrgVar, EnvVar][Index()]
    }

    /** The error text; it ends by naming the setting's environment variable. */
    function Message(): (text: string)
      ensures |text| > |Variable()| && text[|text| - |Variable()| - 1..] == Variable() + ")"
    {
      match this
      case MissingEndpoint => "API endpoint required (--endpoint or TREK_API_ENDPOINT)"
      case MissingToken => "API token required (--token or TREK_API_TOKEN)"
      case MissingOrg => "org ID required (--org or TREK_ORG_ID)"
      case MissingEnv => "env required (--env or TREK_ENV)"
    }
  }

  /** An API client built from the four settings. */
  datatype Client = Client(endpoint: string, token: string, org: string, env: string)

  /** `getClient`: the settings are checked in the order endpoint, token, org,
      env, and the first empty one is reported. */
  function GetClient(s: Settings): (r: Result<Client, MissingSetting>)
    ensures r.Success? <==> forall i :: 0 <= i < 4 ==> Fields(s)[i] != ""
    ensures r.Success? ==> r.value == Client(s.endpoint, s.token, s.org, s.env)
    ensures r.Failure? ==> Fields(s)[r.error.Index()] == ""
                           && forall j :: 0 <= j < r.error.Index() ==> Fields(s)[j] != ""
  {
    assert Fields(s)[0] == s.endpoint && Fields(s)[1] == s.token;
    assert Fields(s)[2] == s.org && Fields(s)[3] == s.env;
    if s.endpoint == "" then Failure(MissingEndpoint)
    else if s.token == "" then Failure(MissingToken)
    else if s.org == "" then Failure(MissingOrg)
    else if s.env == "" then Failure(MissingEnv)
    else Success(Client(s.endpoint, s.token, s.org, s.env))
  }

  /** The advice in a missing-setting error is accurate: after the settings
      were resolved, the reported setting is empty, and so are its flag, the
      environment variable the message names, and the configuration file's value. */
  lemma MissingMessageIsAccurate(flags: Settings, environ: Environ, source: ConfigSource)
    requires GetClient(InitConfig(flags, environ, source)).Failure?
    ensures var m := GetClient(InitConfig(flags, environ, source)).error;
      && Fields(InitConfig(flags, environ, source))[m.Index()] == ""
      && Fields(flags)[m.Index()] == ""
      && Getenv(environ, m.Variable()) == ""
      && Fields(FileValues(source))[m.Index()] == ""
  {
  }
}

=== FILE: credentials.dfy ===
/**
 The local credential cache: a single stored credential with an absolute
 expiry, read by every command through `GetAccessToken`, reported by
 `whoami`, written by login and removed by logout. The file system is
 abstracted to the three states the code can tell apart; clocks are
 integer seconds.
 */
module Credentials {
  import opened Wrappers

  datatype Credential = Credential(accessToken: string, refreshToken: string, expiresAt: int, email: string)

  /** The credential file: missing, present but unreadable or not a credential, or a stored credential. */
  datatype CredentialFile = Absent | Corrupt | Stored(credential: Credential)

  /** Loading fails uniformly for a missing, unreadable or unparseable file. */
  function Load(f: CredentialFile): (r: Option<Credential>)
    ensures r.Some? <==> f.Stored?
    ensures r.Some? ==> r.value == f.credential
  {
    match f
    case Stored(c) => Some(c)
    case _ => None
  }

  /** `time.Now().After(expiresAt)`: a credential is still good at exactly its expiry. */
  predicate Expired(c: Credential, now: int) {
    now > c.expiresAt
  }

  /** How writing the credential file went. The write opens the file with
      truncation before writing, so it can fail with the old contents intact
      (creating the directory or opening the file failed), after the file was
      emptied (leaving it empty or holding a cut-off document), or only when
      closing it, after the whole new document was written. */
  datatype WriteOutcome = Written | FailedBeforeOpen | FailedAfterTruncate | FailedAfterWrite

  /** Overwrite the file with a credential. On failure the result carries the
      file as the failed write left it. */
  function Save(f: CredentialFile, c: Credential, write: WriteOutcome): (r: Result<CredentialFile, CredentialFile>)
    ensures r.Success? <==> write == Written
    ensures r.Success? ==> Load(r.value) == Some(c)
    ensures write == FailedBeforeOpen ==> r == Failure(f)
    ensures write == FailedAfterTruncate ==> r.Failure? && Load(r.error) == None
    ensures write == FailedAfterWrite ==> r.Failure? && Load(r.error) == Some(c)
  {
    match write
    case Written => Success(Stored(c))
    case FailedBeforeOpen => Failure(f)
    case FailedAfterTruncate => Failure(Corrupt)
    case FailedAfterWrite => Failure(Stored(c))
  }

  /** The cached token if a credential loads and has not expired, "" otherwise; never an error. */
  function GetAccessToken(f: CredentialFile, now: int): (token: string)
    ensures token != "" ==> Load(f).Some? && !Expired(Load(f).value, now)
    ensures Load(f).Some? && !Expired(Load(f).value, now) ==> token == Load(f).value.accessToken
    ensures Load(f).None? || Expired(Load(f).value, now) ==> token == ""
  {
    match Load(f)
    case None => ""
    case Some(c) => if Expired(c, now) then "" else c.accessToken
  }

  /** What `whoami` tells the user. The e-mail line is shown only when the e-mail is known. */
  datatype WhoamiReport = NotAuthenticated | SessionExpired | Authenticated(email: Option<string>, expiresAt: int)

  function Whoami(f: CredentialFile, now: int): (report: WhoamiReport)
    ensures report == NotAuthenticated <==> Load(f).None?
    ensures report == SessionExpired <==> Load(f).Some? && Expired(Load(f).value, now)
    ensures report.Authenticated? ==> report.expiresAt == Load(f).value.expiresAt
    ensures report.Authenticated? ==> (report.email.Some? <==> Load(f).value.email != "")
    ensures report.Authenticated? && report.email.Some? ==> report.email.value == Load(f).value.email
  {
    match Load(f)
    case None => NotAuthenticated
    case Some(c) =>
      if Expired(c, now) then SessionExpired
      else Authenticated(if c.email != "" then Some(c.email) else None, c.expiresAt)
  }

  /** `whoami` and `GetAccessToken` apply the same validity test: `whoami`
      reports an authenticated session exactly when a credential loads and has
      not expired, and then `GetAccessToken` hands out that credential's token. */
  lemma WhoamiAgreesWithGetAccessToken(f: CredentialFile, now: int)
    ensures Whoami(f, now).Authenticated? <==> f.Stored? && now <= f.credential.expiresAt
    ensures Whoami(f, now) == SessionExpired <==> f.Stored? && now > f.credential.expiresAt
    ensures Whoami(f, now) == NotAuthenticated <==> !f.Stored?
    ensures Whoami(f, now).Authenticated? ==>
              GetAccessToken(f, now) == f.credential.accessToken
              && Whoami(f, now).expiresAt == f.credential.expiresAt
    ensures GetAccessToken(f, now) != "" ==> Whoami(f, now).Authenticated?
  {
  }

  /** Removing the file: a missing file counts as removed; removing an existing
      file may fail (for example on permissions), which leaves it in place. */
  function Logout(f: CredentialFile, removeFails: bool): (r: Result<CredentialFile, string>)
    ensures r.Success? ==> r.value == Absent
    ensures f.Absent? ==> r.Success?
    ensures r.Failure? <==> !f.Absent? && removeFails
  {
    if f.Absent? then Success(Absent)
    else if removeFails then Failure("failed to remove credentials")
    else Success(Absent)
  }

  /** Logging out twice is the same as logging out once: the second call
      always succeeds, whatever the file system would do. */
  lemma LogoutIdempotent(f: CredentialFile, first: bool, second: bool, now: int)
    requires Logout(f, first).Success?
    ensures Logout(Logout(f, first).value, second) == Success(Absent)
    ensures GetAccessToken(Logout(f, first).value, now) == ""
  {
  }
}

=== FILE: device_flow.dfy ===
/**
 The token poller of the OAuth 2.0 Device Authorization Grant client
 (`pollForToken`, RFC 8628 section 3.4 and 3.5), as a pure step function
 over a trace of events and an integer clock in seconds.

 One loop iteration: check the clock against the deadline, wait `interval`
 seconds (a cancellation may cut the wait short), post the device code to the
 token endpoint, classify the answer by its `error` code. The trace supplies,
 per iteration, either the cancellation or what the request produced together
 with how many seconds passed beyond the nominal wait until the answer was in.
 */
module DeviceFlow {
  import opened Wrappers
  import Strings

  /** Floor on the poll interval in seconds. */
  const MinInterval: int := 5
  /** Seconds added to the interval by each `slow_down` answer. */
  const SlowDownStep: int := 5

  /** The device authorization endpoint's answer (the challenge). */
  datatype DeviceAuthResponse = DeviceAuthResponse(
    deviceCode: string,
    userCode: string,
    verificationUri: string,
    verificationUriComplete: string,
    expiresIn: int,
    interval: int)

  /** The token endpoint's answer after decoding; fields the body lacks stay empty or zero. */
  datatype TokenResponse = TokenResponse(
    accessToken: string,
    tokenType: string,
    expiresIn: int,
    refreshToken: string,
    idToken: string,
    error: string,
    errorDescription: string)

  /** What the response holds when its body is empty or not JSON at all: the
      decode error is ignored and nothing was decoded, so every field keeps
      its zero value. */
  const UndecodedResponse := TokenResponse("", "", 0, "", "", "", "")

  /** What one loop iteration observes after the deadline check. */
  datatype Event =
    | Cancel                                              // the context is done during the wait
    | TransportFailure(latency: nat)                      // the POST itself failed
    | Reply(response: TokenResponse, latency: nat)        // the POST came back with a body

  /** The fate of one token request. */
  datatype Answer = Lost | Answered(response: TokenResponse)

  /** One token request: the clock reading when the loop guard was checked,
      the wait that followed it, and what came back. */
  datatype Attempt = Attempt(checkedAt: int, wait: int, answer: Answer) {
    /** When the request went out. */
    function SentAt(): int {
      checkedAt + wait
    }
  }

  /** How polling ends. */
  datatype PollOutcome =
    | Granted(token: TokenResponse)
    | CodeExpired
    | AccessDenied
    | ProviderError(code: string, description: string)
    | Cancelled
    | TimedOut

  /** Classification of one decoded answer. */
  datatype Verdict = Pending | SlowDown | Terminal(outcome: PollOutcome)

  /** Poller state: clock, fixed deadline, current interval, and the requests made so far. */
  datatype PollState = PollState(now: int, deadline: int, interval: int, attempts: seq<Attempt>)

  /** Either still polling (the trace ran out first) or finished, with the final state. */
  datatype Status = Polling(state: PollState) | Done(outcome: PollOutcome, state: PollState)

  /** The state when polling starts at clock `now`: interval floored at five
      seconds, deadline `expires_in` seconds after the start of polling. */
  function Start(challenge: DeviceAuthResponse, now: int): (s: PollState)
    ensures s.interval >= MinInterval && s.interval >= challenge.interval
    ensures s.interval == MinInterval || s.interval == challenge.interval
    ensures s.deadline - now == challenge.expiresIn
    ensures s.now == now && s.attempts == []
  {
    var interval := if challenge.interval < MinInterval then MinInterval else challenge.interval;
    PollState(now, now + challenge.expiresIn, interval, [])
  }

  /** Classification of a decoded answer by its error code (RFC 8628 section 3.5). */
  function Classify(r: TokenResponse): (v: Verdict)
    ensures v == Terminal(Granted(r)) <==> r.error == ""
    ensures v == Pending <==> r.error == "authorization_pending"
    ensures v == SlowDown <==> r.error == "slow_down"
    ensures v == Terminal(CodeExpired) <==> r.error == "expired_token"
    ensures v == Terminal(AccessDenied) <==> r.error == "access_denied"
    ensures v == Terminal(ProviderError(r.error, r.errorDescription)) <==>
              r.error !in {"", "authorization_pending", "slow_down", "expired_token", "access_denied"}
  {
    match r.error
    case "" => Terminal(Granted(r))
    case "authorization_pending" => Pending
    case "slow_down" => SlowDown
    case "expired_token" => Terminal(CodeExpired)
    case "access_denied" => Terminal(AccessDenied)
    case _ => Terminal(ProviderError(r.error, r.errorDescription))
  }

  /** Error text of a failed poll. */
  function ErrorText(o: PollOutcome): (text: string)
    ensures text == "" <==> o.Granted?
    ensures ':' in text <==> o.ProviderError?
    ensures text == "device code expired" <==> o == CodeExpired
    ensures text == "access denied by user" <==> o == AccessDenied
    ensures text == "context canceled" <==> o == Cancelled
    ensures text == "authentication timed out" <==> o == TimedOut
    ensures o.ProviderError? ==> |text| == |o.code| + 2 + |o.description|
    ensures o.ProviderError? ==>
              && text[..|o.code|] == o.code
              && text[|o.code|..|o.code| + 2] == ": "
              && text[|o.code| + 2..] == o.description
  {
    match o
    case Granted(_) => ""
    case CodeExpired => "device code expired"
    case AccessDenied => "access denied by user"
    case ProviderError(code, description) => code + ": " + description
    case Cancelled => "context canceled"
    case TimedOut => "authentication timed out"
  }

  /** The provider's code and description reach the user verbatim: splitting the
      text at its first colon gives the code back, and the description follows
      the single space after it. */
  lemma ProviderErrorVerbatim(code: string, description: string)
    requires ':' !in code
    ensures Strings.SplitAtFirst(ErrorText(ProviderError(code, description)), ':')
              == Some((code, " " + description))
  {
    assert ErrorText(ProviderError(code, description)) == code + [':'] + (" " + description);
    Strings.SplitAtFirstOfJoined(code, ':', " " + description);
  }

  /** Log the request made from state `s` and advance the clock by the wait
      and by the time the request took. */
  function Record(s: PollState, a: Answer, latency: nat): PollState {
    s.(now := s.now + s.interval + latency,
       attempts := s.attempts + [Attempt(s.now, s.interval, a)])
  }

  /** One loop iteration, entered after the deadline check passed. */
  function Step(s: PollState, e: Event): (st: Status)
    ensures e.Cancel? ==> st == Done(Cancelled, s)
    ensures !e.Cancel? ==> st.state.attempts == s.attempts + [Attempt(s.now, s.interval, if e.Reply? then Answered(e.response) else Lost)]
    ensures !e.Cancel? ==> st.state.now == s.now + s.interval + e.latency
    ensures st.state.deadline == s.deadline
    ensures st.Polling? <==> e.TransportFailure? || (e.Reply? && e.response.error in {"authorization_pending", "slow_down"})
    ensures st.Polling? ==> st.state.interval == s.interval + (if e.Reply? && e.response.error == "slow_down" then SlowDownStep else 0)
    ensures st.Done? && e.Reply? ==> Classify(e.response) == Terminal(st.outcome)
  {
    match e
    case Cancel => Done(Cancelled, s)
    case TransportFailure(latency) => Polling(Record(s, Lost, latency))
    case Reply(r, latency) =>
      var next := Record(s, Answered(r), latency);
      match Classify(r)
      case Pending => Polling(next)
      case SlowDown => Polling(next.(interval := next.interval + SlowDownStep))
      case Terminal(o) => Done(o, next)
  }

  /** The loop: the clock is checked at the top of each iteration only. */
  function Run(s: PollState, events: seq<Event>): (st: Status)
    ensures st.state.deadline == s.deadline
    ensures st.state.interval >= s.interval
    ensures s.attempts <= st.state.attempts
    ensures |st.state.attempts| <= |s.attempts| + |events|
    ensures st.Polling? ==> st.state.now < st.state.deadline
    ensures st == Done(TimedOut, st.state) ==> st.state.now >= st.state.deadline
    ensures st.Done? && st.outcome.Granted? ==> st.outcome.token.error == ""
    decreases |events|
  {
    if !(s.now < s.deadline) then Done(TimedOut, s)
    else if |events| == 0 then Polling(s)
    else match Step(s, events[0])
      case Polling(next) => Run(next, events[1..])
      case Done(o, last) => Done(o, last)
  }

  /** `pollForToken` started at clock `now`. */
  function Poll(challenge: DeviceAuthResponse, now: int, events: seq<Event>): (st: Status)
    ensures st.state.deadline == now + challenge.expiresIn
    ensures st.state.interval >= MinInterval && st.state.interval >= challenge.interval
    ensures |st.state.attempts| <= |events|
    ensures challenge.expiresIn <= 0 ==> st == Done(TimedOut, Start(challenge, now))
    ensures st.Done? && st.outcome.Granted? ==> st.outcome.token.error == ""
  {
    Run(Start(challenge, now), events)
  }

  // ---------------------------------------------------------------------------
  // The request history

  predicate IsSlowDown(a: Answer) {
    a.Answered? && a.response.error == "slow_down"
  }

  /** Seconds an answer adds to the interval. */
  function Bump(a: Answer): int {
    if IsSlowDown(a) then SlowDownStep else 0
  }

  /** The loop goes on after this answer. */
  predicate Continues(a: Answer) {
    a.Lost? || !Classify(a.response).Terminal?
  }

  predicate AllContinue(a: seq<Attempt>) {
    forall k :: 0 <= k < |a| ==> Continues(a[k].answer)
  }

  /** Each wait is the previous wait plus what the previous answer added. */
  predicate WaitsChained(a: seq<Attempt>) {
    forall k :: 0 <= k < |a| - 1 ==> a[k + 1].wait == a[k].wait + Bump(a[k].answer)
  }

  predicate WaitsAtLeast(a: seq<Attempt>, base: int) {
    forall k :: 0 <= k < |a| ==> a[k].wait >= base
  }

  /** Each request is issued after the previous one came back. */
  predicate Sequential(a: seq<Attempt>) {
    forall k :: 0 <= k < |a| - 1 ==> a[k].SentAt() <= a[k + 1].checkedAt
  }

  /** Each request followed a deadline check that passed. */
  predicate ChecksPassed(a: seq<Attempt>, deadline: int) {
    forall k :: 0 <= k < |a| ==> a[k].checkedAt < deadline
  }

  /** What holds of every state reached from a start state whose interval was `base`. */
  predicate Reachable(s: PollState, base: int) {
    && base >= MinInterval
    && s.interval >= base
    && (|s.attempts| == 0 ==> s.interval == base)
    && (|s.attempts| > 0 ==>
          var last := s.attempts[|s.attempts| - 1];
          && s.attempts[0].wait == base
          && s.interval == last.wait + Bump(last.answer)
          && last.SentAt() <= s.now)
    && WaitsChained(s.attempts)
    && WaitsAtLeast(s.attempts, base)
    && Sequential(s.attempts)
    && ChecksPassed(s.attempts, s.deadline)
  }

  /** What a finished or paused run says about its history. */
  predicate Ended(st: Status, start: PollState) {
    && st.state.deadline == start.deadline
    && |start.attempts| <= |st.state.attempts|
    && st.state.attempts[..|start.attempts|] == start.attempts
    && (st.Polling? ==> AllContinue(st.state.attempts))
    && (st.Done? && (st.outcome.TimedOut? || st.outcome.Cancelled?) ==> AllContinue(st.state.attempts))
    && (st.Done? && st.outcome.TimedOut? ==> st.state.now >= st.state.deadline)
    && (st.Done? && !st.outcome.TimedOut? && !st.outcome.Cancelled? ==>
          var n := |st.state.attempts|;
          && n > |start.attempts|
          && AllContinue(st.state.attempts[..n - 1])
          && st.state.attempts[n - 1].answer.Answered?
          && Classify(st.state.attempts[n - 1].answer.response) == Terminal(st.outcome))
  }

  lemma RecordKeepsReachable(s: PollState, a: Answer, latency: nat, base: int)
    requires Reachable(s, base) && s.now < s.deadline
    ensures Reachable(Record(s, a, latency).(interval := s.interval + Bump(a)), base)
    ensures Record(s, a, latency).now >= s.now + MinInterval
  {
    var x := Attempt(s.now, s.interval, a);
    var na := s.attempts + [x];
    assert forall k :: 0 <= k < |s.attempts| ==> na[k] == s.attempts[k];
    assert na[|s.attempts|] == x;
  }

  lemma ReplyKeepsReachable(s: PollState, r: TokenResponse, latency: nat, base: int)
    requires Reachable(s, base) && AllContinue(s.attempts) && s.now < s.deadline
    ensures Reachable(Step(s, Reply(r, latency)).state, base)
    ensures Ended(Step(s, Reply(r, latency)), s)
    ensures Step(s, Reply(r, latency)).Polling? ==> Step(s, Reply(r, latency)).state.now >= s.now + MinInterval
  {
    RecordKeepsReachable(s, Answered(r), latency, base);
    var na := Record(s, Answered(r), latency).attempts;
    assert na[..|s.attempts|] == s.attempts;
    assert na[|s.attempts|] == Attempt(s.now, s.interval, Answered(r));
  }

  lemma LostKeepsReachable(s: PollState, latency: nat, base: int)
    requires Reachable(s, base) && AllContinue(s.attempts) && s.now < s.deadline
    ensures Reachable(Step(s, TransportFailure(latency)).state, base)
    ensures Ended(Step(s, TransportFailure(latency)), s)
    ensures Step(s, TransportFailure(latency)).state.now >= s.now + MinInterval
  {
    RecordKeepsReachable(s, Lost, latency, base);
    var na := Record(s, Lost, latency).attempts;
    assert na[..|s.attempts|] == s.attempts;
    assert na[|s.attempts|] == Attempt(s.now, s.interval, Lost);
  }

  lemma StepKeepsReachable(s: PollState, e: Event, base: int)
    requires Reachable(s, base) && AllContinue(s.attempts) && s.now < s.deadline
    ensures Reachable(Step(s, e).state, base)
    ensures Ended(Step(s, e), s)
    ensures Step(s, e).Polling? ==> Step(s, e).state.now >= s.now + MinInterval
  {
    match e
    case Cancel =>
      assert s.attempts[..|s.attempts|] == s.attempts;
    case TransportFailure(latency) =>
      LostKeepsReachable(s, latency, base);
    case Reply(r, latency) =>
      ReplyKeepsReachable(s, r, latency, base);
  }

  /** `Ended` measured from a later state of the same run also holds from an earlier one. */
  lemma EndedFromEarlier(fin: Status, mid: PollState, s: PollState)
    requires Ended(fin, mid)
    requires mid.deadline == s.deadline && s.attempts <= mid.attempts
    ensures Ended(fin, s)
  {
    assert fin.state.attempts[..|s.attempts|] == fin.state.attempts[..|mid.attempts|][..|s.attempts|];
  }

  /** Every run from a reachable state ends in a reachable state with the same
      deadline, extends the history, and ends only for the reasons the loop has. */
  lemma {:induction false} RunKeepsReachable(s: PollState, events: seq<Event>, base: int)
    requires Reachable(s, base) && AllContinue(s.attempts)
    ensures Reachable(Run(s, events).state, base)
    ensures Ended(Run(s, events), s)
    decreases |events|
  {
    if !(s.now < s.deadline) || |events| == 0 {
      assert s.attempts[..|s.attempts|] == s.attempts;
    } else {
      StepKeepsReachable(s, events[0], base);
      var st := Step(s, events[0]);
      if st.Polling? {
        RunKeepsReachable(st.state, events[1..], base);
        assert Run(st.state, events[1..]) == Run(s, events);
        EndedFromEarlier(Run(s, events), st.state, s);
      }
    }
  }

  lemma PollReachable(challenge: DeviceAuthResponse, now: int, events: seq<Event>)
    ensures Reachable(Poll(challenge, now, events).state, Start(challenge, now).interval)
    ensures Ended(Poll(challenge, now, events), Start(challenge, now))
  {
    RunKeepsReachable(Start(challenge, now), events, Start(challenge, now).interval);
  }

  // ---------------------------------------------------------------------------
  // Properties of a poll

  /** Number of `slow_down` answers among the given requests. */
  function SlowDowns(a: seq<Attempt>): nat
    decreases |a|
  {
    if |a| == 0 then 0
    else SlowDowns(a[..|a| - 1]) + (if IsSlowDown(a[|a| - 1].answer) then 1 else 0)
  }

  /** In a chained history, each wait is the first wait plus five seconds per
      `slow_down` answered before it. */
  lemma {:induction false} WaitCountsSlowDowns(a: seq<Attempt>, k: nat)
    requires WaitsChained(a) && k < |a|
    ensures a[k].wait == a[0].wait + SlowDownStep * SlowDowns(a[..k])
    decreases k
  {
    if k == 0 {
      assert a[..0] == [];
    } else {
      WaitCountsSlowDowns(a, k - 1);
      assert a[..k][..k - 1] == a[..k - 1];
    }
  }

  /** The wait before the first request is the floored advertised interval; a
      `slow_down` raises the wait before the next request by exactly five
      seconds, anything else leaves it unchanged; so every wait is the first
      one plus five seconds per earlier `slow_down`, never below five seconds. */
  lemma WaitsFollowSlowDowns(challenge: DeviceAuthResponse, now: int, events: seq<Event>, a: seq<Attempt>)
    requires a == Poll(challenge, now, events).state.attempts
    ensures |a| > 0 ==> a[0].wait == Start(challenge, now).interval
    ensures forall k :: 0 <= k < |a| - 1 ==>
              a[k + 1].wait == a[k].wait + (if IsSlowDown(a[k].answer) then SlowDownStep else 0)
    ensures forall k :: 0 <= k < |a| ==>
              a[k].wait == Start(challenge, now).interval + SlowDownStep * SlowDowns(a[..k])
    ensures forall k :: 0 <= k < |a| ==> a[k].wait >= MinInterval && a[k].wait >= challenge.interval
  {
    PollReachable(challenge, now, events);
    forall k | 0 <= k < |a|
      ensures a[k].wait == Start(challenge, now).interval + SlowDownStep * SlowDowns(a[..k])
    {
      WaitCountsSlowDowns(a, k);
    }
  }

  /** Requests go out one after another, at least the current wait (so at least
      five seconds) apart; each follows a deadline check that passed, so a
      request may leave up to one interval after the deadline, never later. */
  lemma RequestsSpacedAndBounded(challenge: DeviceAuthResponse, now: int, events: seq<Event>, st: PollState)
    requires st == Poll(challenge, now, events).state
    ensures st.deadline == now + challenge.expiresIn
    ensures forall k :: 0 <= k < |st.attempts| ==> st.attempts[k].checkedAt < st.deadline
    ensures forall k :: 0 <= k < |st.attempts| ==>
              st.attempts[k].SentAt() < st.deadline + st.attempts[k].wait
    ensures forall k :: 0 < k < |st.attempts| ==>
              st.attempts[k].SentAt() - st.attempts[k - 1].SentAt() >= st.attempts[k].wait
    ensures forall k :: 0 <= k < |st.attempts| ==> st.attempts[k].wait >= MinInterval
  {
    PollReachable(challenge, now, events);
  }

  /** An event after which the loop goes on. */
  predicate KeepsGoing(e: Event) {
    e.TransportFailure? || (e.Reply? && !Classify(e.response).Terminal?)
  }

  /** While every answer says to keep going, polling never succeeds: it either
      runs out of trace while still pending or times out. */
  lemma {:induction false} NonTerminalTraceNeverGrants(s: PollState, events: seq<Event>)
    requires forall i :: 0 <= i < |events| ==> KeepsGoing(events[i])
    ensures Run(s, events).Polling? || Run(s, events).outcome == TimedOut
    decreases |events|
  {
    if s.now < s.deadline && |events| > 0 {
      NonTerminalTraceNeverGrants(Step(s, events[0]).state, events[1..]);
    }
  }

  /** Each keep-going iteration advances the clock by at least five seconds, so
      enough of them reach the deadline and polling times out. */
  lemma {:induction false} NonTerminalTraceTimesOut(s: PollState, events: seq<Event>)
    requires s.interval >= MinInterval
    requires forall i :: 0 <= i < |events| ==> KeepsGoing(events[i])
    requires |events| * MinInterval >= s.deadline - s.now
    ensures Run(s, events).Done? && Run(s, events).outcome == TimedOut
    decreases |events|
  {
    if s.now < s.deadline {
      var next := Step(s, events[0]).state;
      assert next.now >= s.now + MinInterval && next.interval >= MinInterval;
      NonTerminalTraceTimesOut(next, events[1..]);
    }
  }

  /** A provider that only ever answers `authorization_pending` never grants a
      token, and once the trace covers `expires_in` seconds at the minimum
      spacing the poll ends with a timeout. */
  lemma PendingForeverTimesOut(challenge: DeviceAuthResponse, now: int, events: seq<Event>)
    requires forall i :: 0 <= i < |events| ==> events[i].Reply? && events[i].response.error == "authorization_pending"
    ensures !(Poll(challenge, now, events).Done? && Poll(challenge, now, events).outcome.Granted?)
    ensures |events| * MinInterval >= challenge.expiresIn ==> Poll(challenge, now, events) == Done(TimedOut, Poll(challenge, now, events).state)
  {
    assert forall i :: 0 <= i < |events| ==> KeepsGoing(events[i]);
    NonTerminalTraceNeverGrants(Start(challenge, now), events);
    if |events| * MinInterval >= challenge.expiresIn {
      NonTerminalTraceTimesOut(Start(challenge, now), events);
    }
  }

  /** A cancellation ends polling at the first `Cancel` of the trace, with no
      request issued for it or after it: the requests made are exactly one per
      earlier event. */
  lemma {:induction false} CancelSendsNothingMore(s: PollState, events: seq<Event>)
    requires Run(s, events) == Done(Cancelled, Run(s, events).state)
    ensures exists i :: 0 <= i < |events| && events[i].Cancel?
              && (forall j :: 0 <= j < i ==> !events[j].Cancel?)
              && |Run(s, events).state.attempts| == |s.attempts| + i
    decreases |events|
  {
    var e := events[0];
    if e.Cancel? {
      assert events[0].Cancel? && |Run(s, events).state.attempts| == |s.attempts| + 0;
    } else {
      var next := Step(s, e).state;
      assert |next.attempts| == |s.attempts| + 1;
      CancelSendsNothingMore(next, events[1..]);
      var i :| 0 <= i < |events[1..]| && events[1..][i].Cancel?
              && (forall j :: 0 <= j < i ==> !events[1..][j].Cancel?)
              && |Run(next, events[1..]).state.attempts| == |next.attempts| + i;
      assert events[i + 1].Cancel?;
      assert forall j :: 0 <= j < i + 1 ==> !events[j].Cancel? by {
        forall j | 0 <= j < i + 1 ensures !events[j].Cancel? {
          if j > 0 { assert events[j] == events[1..][j - 1]; }
        }
      }
    }
  }

  /** A successful poll returns the last answer itself, whose error code is
      empty; every earlier answer had said to keep polling. */
  lemma GrantIsLastAnswer(challenge: DeviceAuthResponse, now: int, events: seq<Event>, token: TokenResponse)
    requires Poll(challenge, now, events) == Done(Granted(token), Poll(challenge, now, events).state)
    ensures var a := Poll(challenge, now, events).state.attempts;
      && |a| > 0
      && a[|a| - 1].answer == Answered(token)
      && token.error == ""
      && AllContinue(a[..|a| - 1])
  {
    PollReachable(challenge, now, events);
  }

  /** A body that is empty or not JSON at all leaves every field empty, which
      the classification takes for success: the poll ends granting an empty token. */
  lemma MalformedReplyIsGrant(s: PollState, latency: nat)
    ensures Step(s, Reply(UndecodedResponse, latency)).Done?
    ensures Step(s, Reply(UndecodedResponse, latency)).outcome == Granted(UndecodedResponse)
    ensures Step(s, Reply(UndecodedResponse, latency)).outcome.token.accessToken == ""
  {
  }

  /** The clock is only read at the top of the loop: with a six-second expiry
      and five-second interval, the second request leaves four seconds after
      the deadline. */
  lemma LateRequestExample()
    ensures var pending := Reply(UndecodedResponse.(error := "authorization_pending"), 0);
      var st := Poll(DeviceAuthResponse("dc", "uc", "uri", "uri?c", 6, 5), 0, [pending, pending]);
      && st.Done? && st.outcome == TimedOut
      && |st.state.attempts| == 2
      && st.state.attempts[1].SentAt() == st.state.deadline + 4
  {
    var pending := Reply(UndecodedResponse.(error := "authorization_pending"), 0);
    var s0 := Start(DeviceAuthResponse("dc", "uc", "uri", "uri?c", 6, 5), 0);
    assert Classify(pending.response) == Pending;
    var s1 := Record(s0, Answered(pending.response), 0);
    assert Step(s0, pending) == Polling(s1);
    assert [pending, pending][1..] == [pending];
    var s2 := Record(s1, Answered(pending.response), 0);
    assert Step(s1, pending) == Polling(s2);
    assert [pending][1..] == [];
    assert s2.now == 10 && s2.deadline == 6;
    assert Run(s2, []) == Done(TimedOut, s2);
    assert Run(s1, [pending]) == Done(TimedOut, s2);
  }
}

=== FILE: listing.dfy ===
/**
 Rendering helpers of `session list`: the selector summary, column truncation
 and the active/expired status of a listed session (clock in seconds).
 */
module Listing {
  import Strings

  /** A session selector: four fixed targets and free-form custom entries. */
  datatype Selector = Selector(userId: string, tenantId: string, requestId: string, route: string, custom: map<string, string>)

  const EmptySelectorText := "(empty)"
  const Ellipsis := "..."

  /** Cut a string to at most `max` bytes, marking the cut with "...". When the
      string is longer than `max`, `max` must leave room for the marker (the
      slice would be out of range otherwise); the listing passes 28 and 30. */
  function Truncate(s: string, max: int): (r: string)
    requires |s| <= max || max >= 3
    ensures |r| <= max
    ensures |s| <= max ==> r == s
    ensures |s| > max ==> |r| == max && r[..max - 3] == s[..max - 3] && r[max - 3..] == Ellipsis
  {
    if |s| <= max then s else s[..max - 3] + Ellipsis
  }

  /** Truncating an already truncated string changes nothing. */
  lemma TruncateIdempotent(s: string, max: int)
    requires |s| <= max || max >= 3
    ensures Truncate(Truncate(s, max), max) == Truncate(s, max)
  {
  }

  /** Status column: "expired" once the clock is past the expiry, "active" up to and including it. */
  function SessionStatus(expiresAt: int, now: int): (status: string)
    ensures status == "expired" <==> now > expiresAt
    ensures status == "active" <==> now <= expiresAt
  {
    if now > expiresAt then "expired" else "active"
  }

  /** A session only ever goes from active to expired as the clock advances:
      once expired it stays expired, and an active session was active at
      every earlier instant. */
  lemma StatusMonotone(expiresAt: int, earlier: int, later: int)
    requires earlier <= later
    ensures SessionStatus(expiresAt, earlier) == "expired" ==> SessionStatus(expiresAt, later) == "expired"
    ensures SessionStatus(expiresAt, later) == "active" ==> SessionStatus(expiresAt, earlier) == "active"
    ensures SessionStatus(expiresAt, later) == "active" || SessionStatus(expiresAt, later) == "expired"
  {
  }

  /** The four fixed targets with their labels, in display order. */
  function Labelled(sel: Selector): seq<(string, string)> {
    [("user:", sel.userId), ("tenant:", sel.tenantId), ("req:", sel.requestId), ("route:", sel.route)]
  }

  /** `label + value` for every pair whose value is non-empty, in order. */
  function Present(pairs: seq<(string, string)>): (parts: seq<string>)
    ensures |parts| <= |pairs|
    decreases |pairs|
  {
    if |pairs| == 0 then []
    else if pairs[0].1 != "" then [pairs[0].0 + pairs[0].1] + Present(pairs[1..])
    else Present(pairs[1..])
  }

  /** `key:value` for each custom key, in the given iteration order. */
  function CustomParts(custom: map<string, string>, order: seq<string>): (parts: seq<string>)
    requires forall k :: k in order ==> k in custom
    ensures |parts| == |order|
    decreases |order|
  {
    if |order| == 0 then [] else [order[0] + ":" + custom[order[0]]] + CustomParts(custom, order[1..])
  }

  lemma {:induction false} CustomPartsAppend(custom: map<string, string>, a: seq<string>, b: seq<string>)
    requires forall k :: k in a + b ==> k in custom
    ensures CustomParts(custom, a + b) == CustomParts(custom, a) + CustomParts(custom, b)
    decreases |a|
  {
    if |a| == 0 {
      assert a + b == b;
    } else {
      assert (a + b)[0] == a[0] && (a + b)[1..] == a[1..] + b;
      CustomPartsAppend(custom, a[1..], b);
    }
  }

  /** A position in `o2` of the first element of `o1`, when both hold the same elements. */
  lemma Occurrence<T>(o1: seq<T>, o2: seq<T>) returns (i: nat)
    requires |o1| > 0 && multiset(o1) == multiset(o2)
    ensures i < |o2| && o2[i] == o1[0]
  {
    assert o1[0] in multiset(o1);
    assert o1[0] in o2;
    i :| 0 <= i < |o2| && o2[i] == o1[0];
  }

  /** Removing one occurrence from two equal multisets leaves equal multisets. */
  lemma MultisetRemoveOne<T>(o1: seq<T>, o2: seq<T>, i: nat)
    requires |o1| > 0 && i < |o2| && o2[i] == o1[0]
    requires multiset(o1) == multiset(o2)
    ensures multiset(o1[1..]) == multiset(o2[..i] + o2[i + 1..])
  {
    var x := o1[0];
    var m1 := multiset(o1[1..]);
    var m2 := multiset(o2[..i] + o2[i + 1..]);
    assert o1 == [x] + o1[1..];
    assert multiset(o1) == multiset{x} + m1;
    assert o2 == o2[..i] + [x] + o2[i + 1..];
    assert multiset(o2) == multiset{x} + m2;
    forall y
      ensures m1[y] == m2[y]
    {
      assert (multiset{x} + m1)[y] == (multiset{x} + m2)[y];
    }
    assert m1 == m2;
  }

  /** Dropping one position keeps every remaining key in the map. */
  lemma KeysOfRemoved(custom: map<string, string>, o: seq<string>, i: nat)
    requires i < |o| && forall k :: k in o ==> k in custom
    ensures forall k :: k in o[..i] + o[i + 1..] ==> k in custom
  {
    forall k | k in o[..i] + o[i + 1..]
      ensures k in custom
    {
      var j :| 0 <= j < |o[..i] + o[i + 1..]| && (o[..i] + o[i + 1..])[j] == k;
      if j < i { assert o[j] == k; } else { assert o[j + 1] == k; }
    }
  }

  /** Taking the first key of `o1` out of both orders keeps the premises of the permutation argument. */
  lemma RemoveMatched(custom: map<string, string>, o1: seq<string>, o2: seq<string>, i: nat)
    requires |o1| > 0 && i < |o2| && o2[i] == o1[0]
    requires forall k :: k in o1 ==> k in custom
    requires forall k :: k in o2 ==> k in custom
    requires multiset(o1) == multiset(o2)
    ensures forall k :: k in o1[1..] ==> k in custom
    ensures forall k :: k in o2[..i] + o2[i + 1..] ==> k in custom
    ensures multiset(o1[1..]) == multiset(o2[..i] + o2[i + 1..])
  {
    MultisetRemoveOne(o1, o2, i);
    KeysOfRemoved(custom, o1, 0);
    KeysOfRemoved(custom, o2, i);
    assert o1[..0] + o1[1..] == o1[1..];
  }

  /** Putting the matched key back in front of one order and at its place in the other. */
  lemma RestoreMatched(custom: map<string, string>, o1: seq<string>, o2: seq<string>, i: nat)
    requires |o1| > 0 && i < |o2| && o2[i] == o1[0]
    requires forall k :: k in o1 ==> k in custom
    requires forall k :: k in o2[..i] + o2[i + 1..] ==> k in custom
    requires forall k :: k in o1[1..] ==> k in custom
    requires multiset(CustomParts(custom, o1[1..])) == multiset(CustomParts(custom, o2[..i] + o2[i + 1..]))
    ensures multiset(CustomParts(custom, o1)) == multiset(CustomParts(custom, o2))
  {
    assert o1 == [o1[0]] + o1[1..];
    assert o2 == o2[..i] + [o1[0]] + o2[i + 1..];
    CustomPartsMoveOne(custom, o1[0], o1[1..], o2[..i], o2[i + 1..]);
  }

  /** Map iteration order is unspecified; any two orders listing the same keys
      yield the same custom entries, merely permuted. */
  lemma {:induction false} CustomOrderIrrelevant(custom: map<string, string>, o1: seq<string>, o2: seq<string>)
    requires forall k :: k in o1 ==> k in custom
    requires forall k :: k in o2 ==> k in custom
    requires multiset(o1) == multiset(o2)
    ensures multiset(CustomParts(custom, o1)) == multiset(CustomParts(custom, o2))
    decreases |o1|
  {
    if |o1| > 0 {
      var i := Occurrence(o1, o2);
      RemoveMatched(custom, o1, o2, i);
      CustomOrderIrrelevant(custom, o1[1..], o2[..i] + o2[i + 1..]);
      RestoreMatched(custom, o1, o2, i);
    }
  }

  /** One step of the permutation argument: putting the same key in front of
      two orders whose parts agree as multisets, or between them, keeps them agreeing. */
  lemma CustomPartsMoveOne(custom: map<string, string>, x: string, rest: seq<string>, a: seq<string>, b: seq<string>)
    requires x in custom
    requires forall k :: k in rest ==> k in custom
    requires forall k :: k in a + b ==> k in custom
    requires multiset(CustomParts(custom, rest)) == multiset(CustomParts(custom, a + b))
    ensures multiset(CustomParts(custom, [x] + rest)) == multiset(CustomParts(custom, a + [x] + b))
  {
    assert forall k :: k in a + [x] + b ==> k in custom;
    var px, pa, pb := CustomParts(custom, [x]), CustomParts(custom, a), CustomParts(custom, b);
    CustomPartsAppend(custom, [x], rest);
    CustomPartsAppend(custom, a, b);
    CustomPartsAppend(custom, a + [x], b);
    CustomPartsAppend(custom, a, [x]);
    calc {
      multiset(CustomParts(custom, [x] + rest));
      multiset(px) + multiset(CustomParts(custom, rest));
      multiset(px) + multiset(pa + pb);
      multiset(pa + px + pb);
      multiset(CustomParts(custom, a + [x] + b));
    }
  }

  /** Every custom entry shows up as `key:value` whatever the iteration order. */
  lemma {:induction false} CustomPartsEntries(custom: map<string, string>, order: seq<string>, k: string)
    requires forall k' :: k' in order ==> k' in custom
    requires k in order
    ensures k in custom && k + ":" + custom[k] in CustomParts(custom, order)
    decreases |order|
  {
    if order[0] != k {
      CustomPartsEntries(custom, order[1..], k);
    }
  }

  predicate EmptySelector(sel: Selector) {
    sel.userId == "" && sel.tenantId == "" && sel.requestId == "" && sel.route == "" && |sel.custom| == 0
  }

  /** The fixed parts, spelled out target by target. */
  lemma PresentFixed(sel: Selector)
    ensures Present(Labelled(sel)) ==
      (if sel.userId != "" then ["user:" + sel.userId] else [])
      + (if sel.tenantId != "" then ["tenant:" + sel.tenantId] else [])
      + (if sel.requestId != "" then ["req:" + sel.requestId] else [])
      + (if sel.route != "" then ["route:" + sel.route] else [])
  {
    var l := Labelled(sel);
    assert l[3..][1..] == [];
    assert Present(l[3..]) == if sel.route != "" then ["route:" + sel.route] else [];
    assert l[2..][1..] == l[3..];
    assert Present(l[2..]) == (if sel.requestId != "" then ["req:" + sel.requestId] else []) + Present(l[3..]);
    assert l[1..][1..] == l[2..];
    assert Present(l[1..]) == (if sel.tenantId != "" then ["tenant:" + sel.tenantId] else []) + Present(l[2..]);
    assert Present(l) == (if sel.userId != "" then ["user:" + sel.userId] else []) + Present(l[1..]);
  }

  /** Every part carries a colon, so a non-empty join can never read "(empty)". */
  lemma JoinedPartsAreNotEmptyText(parts: seq<string>)
    requires |parts| > 0 && ':' in parts[0]
    ensures Strings.Join(parts, ", ") != EmptySelectorText
  {
    Strings.JoinKeeps(parts, ", ", 0, ':');
    assert ':' !in EmptySelectorText;
  }

  /** Every custom part carries a colon. */
  lemma CustomPartsColon(custom: map<string, string>, order: seq<string>)
    requires forall k :: k in order ==> k in custom
    requires |order| > 0
    ensures ':' in CustomParts(custom, order)[0]
  {
    var k := order[0];
    assert (k + ":" + custom[k])[|k|] == ':';
  }

  /** The loop over the custom map: one `key:value` part per key, in visiting order. */
  method AppendCustomParts(parts: seq<string>, custom: map<string, string>, order: seq<string>) returns (out: seq<string>)
    requires forall k :: k in order ==> k in custom
    ensures out == parts + CustomParts(custom, order)
  {
    out := parts;
    var i := 0;
    while i < |order|
      invariant 0 <= i <= |order|
      invariant out == parts + CustomParts(custom, order[..i])
    {
      var k := order[i];
      assert order[..i + 1] == order[..i] + [k];
      CustomPartsAppend(custom, order[..i], [k]);
      out := out + [k + ":" + custom[k]];
      i := i + 1;
    }
    assert order[..i] == order;
  }

  /** The selector summary. `order` is the order in which the custom map is
      visited: every custom key exactly once. The fixed targets come first as
      user, tenant, req, route (only the non-empty ones), then one `key:value`
      per custom entry, joined by ", "; "(empty)" exactly when there is nothing
      to show. */
  method FormatSelector(sel: Selector, order: seq<string>) returns (text: string)
    requires |order| == |sel.custom|
    requires forall k :: k in order <==> k in sel.custom
    ensures text == EmptySelectorText <==> EmptySelector(sel)
    ensures !EmptySelector(sel) ==>
              text == Strings.Join(Present(Labelled(sel)) + CustomParts(sel.custom, order), ", ")
  {
    var parts: seq<string> := [];
    if sel.userId != "" {
      parts := parts + ["user:" + sel.userId];
    }
    if sel.tenantId != "" {
      parts := parts + ["tenant:" + sel.tenantId];
    }
    if sel.requestId != "" {
      parts := parts + ["req:" + sel.requestId];
    }
    if sel.route != "" {
      parts := parts + ["route:" + sel.route];
    }
    ghost var fixed := parts;
    PresentFixed(sel);
    assert fixed == Present(Labelled(sel));
    assert |parts| > 0 ==> ':' in parts[0];
    assert forall k :: k in order ==> k in sel.custom;
    parts := AppendCustomParts(parts, sel.custom, order);
    if |fixed| == 0 && |order| > 0 {
      CustomPartsColon(sel.custom, order);
    }
    if |parts| == 0 {
      text := EmptySelectorText;
      assert fixed == [];
      assert sel.userId == "" && sel.tenantId == "" && sel.requestId == "" && sel.route == "";
    } else {
      text := Strings.Join(parts, ", ");
      JoinedPartsAreNotEmptyText(parts);
    }
  }
}

=== FILE: login.dfy ===
/**
 `auth login`: resolve the identity-provider domain and client id, request a
 device challenge, poll for the token, and store the credential with an
 absolute expiry. The HTTP exchange of the challenge request is given as its
 outcome; the poll is the trace-driven model of the token poller.
 */
module Login {
  import opened Wrappers
  import opened DeviceFlow
  import opened Credentials
  import Config

  const DomainVar := "TREK_CLERK_DOMAIN"
  const ClientIdVar := "TREK_CLERK_CLIENT_ID"

  datatype LoginConfig = LoginConfig(domain: string, clientId: string)

  /** Why the challenge request failed. */
  datatype ChallengeFailure =
    | NetworkError                // the POST did not complete
    | ServerError(body: string)   // a status other than 200, with the raw body
    | ProtocolError               // a 200 whose body did not decode

  /** What the device authorization endpoint did with the POST. */
  datatype ChallengeExchange =
    | Unreachable
    | Responded(status: int, body: string, decoded: Option<DeviceAuthResponse>)

  datatype LoginError =
    | MissingClerkConfig
    | ChallengeFailed(reason: ChallengeFailure)
    | AuthenticationFailed(outcome: PollOutcome)
    | SaveFailed

  /** Either the login finished (with the credential file as it is afterwards),
      or the trace ran out while the poller was still waiting. */
  datatype LoginRun =
    | Finished(result: Result<Credential, LoginError>, file: CredentialFile)
    | StillWaiting(state: PollState, file: CredentialFile)

  /** Domain and client id each come from the flag, else from the environment;
      both must end up non-empty. */
  function ResolveLoginConfig(flagDomain: string, flagClientId: string, environ: Config.Environ): (r: Result<LoginConfig, LoginError>)
    ensures r.Success? <==>
              Config.FirstNonEmpty([flagDomain, Config.Getenv(environ, DomainVar)]) != ""
              && Config.FirstNonEmpty([flagClientId, Config.Getenv(environ, ClientIdVar)]) != ""
    ensures r.Success? ==>
              r.value.domain == Config.FirstNonEmpty([flagDomain, Config.Getenv(environ, DomainVar)])
              && r.value.clientId == Config.FirstNonEmpty([flagClientId, Config.Getenv(environ, ClientIdVar)])
    ensures r.Failure? ==> r.error == MissingClerkConfig
  {
    Config.FirstNonEmptyOfTwo(flagDomain, Config.Getenv(environ, DomainVar));
    Config.FirstNonEmptyOfTwo(flagClientId, Config.Getenv(environ, ClientIdVar));
    var domain := Config.OrEnv(flagDomain, environ, DomainVar);
    var clientId := Config.OrEnv(flagClientId, environ, ClientIdVar);
    if domain == "" || clientId == "" then Failure(MissingClerkConfig)
    else Success(LoginConfig(domain, clientId))
  }

  /** `requestDeviceAuthorization` once the HTTP exchange is known: any status
      but 200 fails with the raw body, an undecodable 200 fails, and a transport
      failure is not retried. */
  function RequestChallenge(exchange: ChallengeExchange): (r: Result<DeviceAuthResponse, ChallengeFailure>)
    ensures r.Success? <==> exchange.Responded? && exchange.status == 200 && exchange.decoded.Some?
    ensures r.Success? ==> r.value == exchange.decoded.value
    ensures exchange.Responded? && exchange.status != 200 ==> r == Failure(ServerError(exchange.body))
    ensures exchange.Unreachable? ==> r == Failure(NetworkError)
    ensures exchange.Responded? && exchange.status == 200 && exchange.decoded.None? ==> r == Failure(ProtocolError)
  {
    match exchange
    case Unreachable => Failure(NetworkError)
    case Responded(status, body, decoded) =>
      if status != 200 then Failure(ServerError(body))
      else match decoded
        case None => Failure(ProtocolError)
        case Some(challenge) => Success(challenge)
  }

  /** The credential saved for a grant received when the clock read `now`. */
  function CredentialFor(token: TokenResponse, now: int): Credential {
    Credential(token.accessToken, token.refreshToken, now + token.expiresIn, "")
  }

  /** `runLogin`. `pollStart` is the clock when polling begins; the expiry is
      computed from the clock when polling returned. */
  function RunLogin(
    flagDomain: string, flagClientId: string, environ: Config.Environ,
    exchange: ChallengeExchange, pollStart: int, events: seq<Event>,
    write: WriteOutcome, file: CredentialFile): (run: LoginRun)
    ensures run.StillWaiting? ==> run.file == file
    ensures run.Finished? && run.result.Success? ==> Load(run.file) == Some(run.result.value)
    ensures run.Finished? && run.result.Success? ==> run.result.value.email == ""
    ensures run.Finished? && run.result.Failure? && run.result.error != SaveFailed ==> run.file == file
    ensures ResolveLoginConfig(flagDomain, flagClientId, environ).Success? && RequestChallenge(exchange).Failure? ==>
              run == Finished(Failure(ChallengeFailed(RequestChallenge(exchange).error)), file)
    ensures ResolveLoginConfig(flagDomain, flagClientId, environ).Success? && RequestChallenge(exchange).Success? ==>
              var st := Poll(RequestChallenge(exchange).value, pollStart, events);
              st.Done? && !st.outcome.Granted? ==> run == Finished(Failure(AuthenticationFailed(st.outcome)), file)
    ensures ResolveLoginConfig(flagDomain, flagClientId, environ).Success? && RequestChallenge(exchange).Success? ==>
              var st := Poll(RequestChallenge(exchange).value, pollStart, events);
              st.Done? && st.outcome.Granted? && write == Written ==>
                var cred := CredentialFor(st.outcome.token, st.state.now);
                run == Finished(Success(cred), Stored(cred))
    ensures run.Finished? && run.result.Failure? && run.result.error == SaveFailed ==>
              ResolveLoginConfig(flagDomain, flagClientId, environ).Success? && RequestChallenge(exchange).Success? && write != Written
    ensures ResolveLoginConfig(flagDomain, flagClientId, environ).Success? && RequestChallenge(exchange).Success? ==>
              var st := Poll(RequestChallenge(exchange).value, pollStart, events);
              st.Done? && st.outcome.Granted? && write != Written ==>
                && run.Finished? && run.result == Failure(SaveFailed)
                && (write == FailedBeforeOpen ==> run.file == file)
                && (write == FailedAfterTruncate ==> Load(run.file) == None)
                && (write == FailedAfterWrite ==> run.file == Stored(CredentialFor(st.outcome.token, st.state.now)))
  {
    match ResolveLoginConfig(flagDomain, flagClientId, environ)
    case Failure(e) => Finished(Failure(e), file)
    case Success(_) =>
      match RequestChallenge(exchange)
      case Failure(reason) => Finished(Failure(ChallengeFailed(reason)), file)
      case Success(challenge) =>
        match Poll(challenge, pollStart, events)
        case Polling(st) => StillWaiting(st, file)
        case Done(outcome, st) =>
          if outcome.Granted? then
            var cred := CredentialFor(outcome.token, st.now);
            match Save(file, cred, write)
            case Failure(left) => Finished(Failure(SaveFailed), left)
            case Success(saved) => Finished(Success(cred), saved)
          else Finished(Failure(AuthenticationFailed(outcome)), file)
  }

  /** Without a domain or client id, login fails before any request: the result
      does not depend on the exchange, the trace or the file system. */
  lemma MissingConfigStopsEarly(
    flagDomain: string, flagClientId: string, environ: Config.Environ,
    exchange: ChallengeExchange, pollStart: int, events: seq<Event>, write: WriteOutcome,
    exchange': ChallengeExchange, pollStart': int, events': seq<Event>, write': WriteOutcome,
    file: CredentialFile)
    requires Config.FirstNonEmpty([flagDomain, Config.Getenv(environ, DomainVar)]) == ""
             || Config.FirstNonEmpty([flagClientId, Config.Getenv(environ, ClientIdVar)]) == ""
    ensures RunLogin(flagDomain, flagClientId, environ, exchange, pollStart, events, write, file)
            == RunLogin(flagDomain, flagClientId, environ, exchange', pollStart', events', write', file)
            == Finished(Failure(MissingClerkConfig), file)
  {
  }

  /** A save that fails after the file was truncated loses the session that
      was stored before: the login fails and from then on no token is handed out. */
  lemma InterruptedSaveLosesSession(
    flagDomain: string, flagClientId: string, environ: Config.Environ,
    exchange: ChallengeExchange, pollStart: int, events: seq<Event>,
    file: CredentialFile, now: int)
    requires ResolveLoginConfig(flagDomain, flagClientId, environ).Success?
    requires RequestChallenge(exchange).Success?
    requires Poll(RequestChallenge(exchange).value, pollStart, events).Done?
    requires Poll(RequestChallenge(exchange).value, pollStart, events).outcome.Granted?
    ensures var run := RunLogin(flagDomain, flagClientId, environ, exchange, pollStart, events, FailedAfterTruncate, file);
      && run == Finished(Failure(SaveFailed), run.file)
      && GetAccessToken(run.file, now) == ""
  {
  }

  /** A successful login stores the granted access and refresh tokens with an
      empty e-mail, expiring `expires_in` seconds after polling returned; from
      then on `GetAccessToken` hands out the new token up to and including
      that instant, and "" after it. */
  lemma SuccessfulLoginStoresGrant(
    flagDomain: string, flagClientId: string, environ: Config.Environ,
    exchange: ChallengeExchange, pollStart: int, events: seq<Event>,
    write: WriteOutcome, file: CredentialFile, cred: Credential)
    requires RunLogin(flagDomain, flagClientId, environ, exchange, pollStart, events, write, file)
             == Finished(Success(cred), RunLogin(flagDomain, flagClientId, environ, exchange, pollStart, events, write, file).file)
    ensures var run := RunLogin(flagDomain, flagClientId, environ, exchange, pollStart, events, write, file);
      var st := Poll(exchange.decoded.value, pollStart, events);
      && exchange.Responded? && exchange.status == 200 && exchange.decoded.Some?
      && st.Done? && st.outcome.Granted?
      && cred.accessToken == st.outcome.token.accessToken
      && cred.refreshToken == st.outcome.token.refreshToken
      && cred.email == ""
      && cred.expiresAt - st.state.now == st.outcome.token.expiresIn
      && Load(run.file) == Some(cred)
      && (forall t :: t <= cred.expiresAt ==> GetAccessToken(run.file, t) == cred.accessToken)
      && (forall t :: t > cred.expiresAt ==> GetAccessToken(run.file, t) == "")
  {
  }

  /** An `access_denied` answer to the first request fails the login and writes nothing. */
  lemma DeniedLoginWritesNothing(
    flagDomain: string, flagClientId: string, environ: Config.Environ,
    challenge: DeviceAuthResponse, pollStart: int, denial: TokenResponse, latency: nat, rest: seq<Event>,
    write: WriteOutcome, file: CredentialFile)
    requires ResolveLoginConfig(flagDomain, flagClientId, environ).Success?
    requires challenge.expiresIn > 0
    requires denial.error == "access_denied"
    ensures RunLogin(flagDomain, flagClientId, environ, Responded(200, "", Some(challenge)),
                     pollStart, [Reply(denial, latency)] + rest, write, file)
            == Finished(Failure(AuthenticationFailed(AccessDenied)), file)
  {
    var events := [Reply(denial, latency)] + rest;
    assert events[0] == Reply(denial, latency);
  }

  /** A five-second interval and thirty-second expiry; four `authorization_pending`
      answers, then a grant valid for an hour: login succeeds and the credential
      expires an hour after polling returned, at 3625 seconds past its start. */
  lemma PendingThenGrantExample(file: CredentialFile, grant: TokenResponse)
    requires grant.error == "" && grant.expiresIn == 3600
    ensures var pending := Reply(grant.(error := "authorization_pending"), 0);
      var run := RunLogin("clerk.example.com", "cli", map[], Responded(200, "", Some(DeviceAuthResponse("dc", "uc", "u", "uc", 30, 5))),
                          0, [pending, pending, pending, pending, Reply(grant, 0)], Written, file);
      && run.Finished? && run.result.Success?
      && run.result.value.expiresAt == 3625
      && run.file == Stored(run.result.value)
  {
    var pending := Reply(grant.(error := "authorization_pending"), 0);
    var challenge := DeviceAuthResponse("dc", "uc", "u", "uc", 30, 5);
    var events := [pending, pending, pending, pending, Reply(grant, 0)];
    var s0 := Start(challenge, 0);
    assert Classify(pending.response) == Pending;
    var s1 := Record(s0, DeviceFlow.Answered(pending.response), 0);
    var s2 := Record(s1, DeviceFlow.Answered(pending.response), 0);
    var s3 := Record(s2, DeviceFlow.Answered(pending.response), 0);
    var s4 := Record(s3, DeviceFlow.Answered(pending.response), 0);
    var s5 := Record(s4, DeviceFlow.Answered(grant), 0);
    assert s4.now == 20 && s5.now == 25;
    assert Run(s4, events[4..]) == Done(Granted(grant), s5);
    assert Run(s3, events[3..]) == Done(Granted(grant), s5) by { assert events[3..][1..] == events[4..]; }
    assert Run(s2, events[2..]) == Done(Granted(grant), s5) by { assert events[2..][1..] == events[3..]; }
    assert Run(s1, events[1..]) == Done(Granted(grant), s5) by { assert events[1..][1..] == events[2..]; }
    assert Run(s0, events) == Done(Granted(grant), s5);
    assert ResolveLoginConfig("clerk.example.com", "cli", map[]).Success?;
  }
}

=== FILE: policies.dfy ===
/**
 `policies`: the human-readable rendering of a policy's duration limits
 (maximum TTL and similar), given in seconds.
 */
module Policies {
  import opened Wrappers
  import Strings

  const Minute: int := 60
  const Hour: int := 3600

  /** `formatDuration`: whole hours from one hour up, whole minutes from one
      minute up, and the raw second count below that. The text reads back as
      the count in canonical decimal, a space and the unit word: the count is
      the duration truncated to whole units, and the word is singular exactly
      for one hour or one minute ("seconds" never is). */
  function FormatDuration(seconds: int): (text: string)
    ensures ReadDuration(text).Some?
    ensures text == Strings.IntToString(ReadDuration(text).value.0) + " " + ReadDuration(text).value.1
    ensures Says(seconds, ReadDuration(text).value.0, ReadDuration(text).value.1)
  {
    if seconds >= Hour then HoursText(seconds)
    else if seconds >= Minute then MinutesText(seconds)
    else
      assert Strings.IntToString(seconds) + " seconds" == Strings.IntToString(seconds) + " " + "seconds";
      ReadWritten(seconds, "seconds");
      Strings.IntToString(seconds) + " seconds"
  }

  /** The text from one hour up. */
  function HoursText(seconds: int): (text: string)
    requires seconds >= Hour
    ensures ReadDuration(text).Some?
    ensures text == Strings.IntToString(ReadDuration(text).value.0) + " " + ReadDuration(text).value.1
    ensures Says(seconds, ReadDuration(text).value.0, ReadDuration(text).value.1)
  {
    var hours := seconds / Hour;
    assert hours * Hour <= seconds < hours * Hour + Hour;
    if hours == 1 then
      OneIsWrittenOne();
      assert "1 hour" == Strings.IntToString(1) + " " + "hour";
      ReadWritten(1, "hour");
      "1 hour"
    else
      assert Strings.IntToString(hours) + " hours" == Strings.IntToString(hours) + " " + "hours";
      ReadWritten(hours, "hours");
      Strings.IntToString(hours) + " hours"
  }

  /** The text from one minute up to one hour. */
  function MinutesText(seconds: int): (text: string)
    requires Minute <= seconds < Hour
    ensures ReadDuration(text).Some?
    ensures text == Strings.IntToString(ReadDuration(text).value.0) + " " + ReadDuration(text).value.1
    ensures Says(seconds, ReadDuration(text).value.0, ReadDuration(text).value.1)
  {
    var mins := seconds / Minute;
    assert mins * Minute <= seconds < mins * Minute + Minute;
    if mins == 1 then
      OneIsWrittenOne();
      assert "1 minute" == Strings.IntToString(1) + " " + "minute";
      ReadWritten(1, "minute");
      "1 minute"
    else
      assert Strings.IntToString(mins) + " minutes" == Strings.IntToString(mins) + " " + "minutes";
      ReadWritten(mins, "minutes");
      Strings.IntToString(mins) + " minutes"
  }

  /** Reads a rendered duration back into its count and unit word. */
  function ReadDuration(text: string): (r: Option<(int, string)>)
    ensures r.Some? ==> ' ' in text
  {
    match Strings.SplitAtFirst(text, ' ')
    case None => None
    case Some((count, word)) =>
      match Strings.ParseInt(count)
      case None => None
      case Some(n) => Some((n, word))
  }

  /** A count written in decimal, a space and a word reads back as that count and word. */
  lemma ReadWritten(n: int, word: string)
    ensures ReadDuration(Strings.IntToString(n) + " " + word) == Some((n, word))
  {
    var count := Strings.IntToString(n);
    assert count + " " + word == count + [' '] + word;
    Strings.SplitAtFirstOfJoined(count, ' ', word);
    Strings.IntToStringRoundTrip(n);
  }

  /** The unit a duration is shown in. */
  function UnitOf(seconds: int): int {
    if seconds >= Hour then Hour else if seconds >= Minute then Minute else 1
  }

  /** The count and unit word a rendered duration reads back as. */
  predicate Says(seconds: int, n: int, word: string) {
    && (seconds >= Minute ==> n >= 1 && n * UnitOf(seconds) <= seconds < n * UnitOf(seconds) + UnitOf(seconds))
    && (seconds < Minute ==> n == seconds)
    && (seconds >= Hour ==> word == (if n == 1 then "hour" else "hours"))
    && (Minute <= seconds < Hour ==> n < 60 && word == (if n == 1 then "minute" else "minutes"))
    && (seconds < Minute ==> word == "seconds")
  }

  lemma OneIsWrittenOne()
    ensures Strings.IntToString(1) == "1"
  {
  }

  /** Whole hours are truncated: an hour and a half is still "1 hour". */
  lemma HourExamples()
    ensures FormatDuration(3600) == "1 hour"
    ensures FormatDuration(5400) == "1 hour"
  {
    assert FormatDuration(3600) == HoursText(3600);
    assert FormatDuration(5400) == HoursText(5400);
    assert 3600 / Hour == 1 && 5400 / Hour == 1;
  }

  lemma PluralHoursExample()
    ensures FormatDuration(7200) == "2 hours"
  {
    assert FormatDuration(7200) == HoursText(7200);
    assert 7200 / Hour == 2;
    assert Strings.IntToString(2) == [Strings.DigitChar(2)] == "2";
  }

  lemma MinuteExample()
    ensures FormatDuration(60) == "1 minute"
  {
    assert FormatDuration(60) == MinutesText(60);
    assert 60 / Minute == 1;
  }

  lemma SecondsExample()
    ensures FormatDuration(45) == "45 seconds"
  {
    assert Strings.NatToString(4) == [Strings.DigitChar(4)] == "4";
    assert Strings.IntToString(45) == Strings.NatToString(4) + [Strings.DigitChar(5)] == "45";
  }
}

=== FILE: session_create.dfy ===
/**
 `session create`: the checks and conversions done before the create call —
 settings validation, the at-least-one-target rule, `key=value` label
 parsing, and the conversion of the TTL duration (nanoseconds) to whole
 seconds. The create call itself goes to the remote API.
 */
module SessionCreate {
  import opened Wrappers
  import Strings
  import Config
  import Listing

  const NanosPerSecond: int := 1_000_000_000

  /** A label that has no "=". */
  datatype LabelError = InvalidLabel(text: string)

  predicate Valid(l: string) {
    '=' in l
  }

  predicate AllValid(labels: seq<string>) {
    forall i :: 0 <= i < |labels| ==> Valid(labels[i])
  }

  /** The text before the first "=". */
  function KeyOf(l: string): string
    requires Valid(l)
  {
    Strings.SplitAtFirst(l, '=').value.0
  }

  /** Everything after the first "=", which may contain further "=". */
  function ValueOf(l: string): string
    requires Valid(l)
  {
    Strings.SplitAtFirst(l, '=').value.1
  }

  /** Splitting is the inverse of writing `key=value` for a key without "=". */
  lemma LabelRoundTrip(key: string, value: string)
    requires '=' !in key
    ensures Valid(key + "=" + value)
    ensures KeyOf(key + "=" + value) == key && ValueOf(key + "=" + value) == value
  {
    assert key + "=" + value == key + ['='] + value;
    Strings.SplitAtFirstOfJoined(key, '=', value);
  }

  /** The map obtained by assigning the labels in order, later ones overwriting earlier ones. */
  function Assign(labels: seq<string>): map<string, string>
    requires AllValid(labels)
    decreases |labels|
  {
    if |labels| == 0 then map[]
    else
      var last := labels[|labels| - 1];
      Assign(labels[..|labels| - 1])[KeyOf(last) := ValueOf(last)]
  }

  /** Label `i` is the last one with its key. */
  predicate LastWithKey(labels: seq<string>, i: nat)
    requires AllValid(labels) && i < |labels|
  {
    forall j :: i < j < |labels| ==> KeyOf(labels[j]) != KeyOf(labels[i])
  }

  /** Every label's key is in the map. */
  predicate KeysCovered(labels: seq<string>, m: map<string, string>)
    requires AllValid(labels)
  {
    forall i :: 0 <= i < |labels| ==> KeyOf(labels[i]) in m
  }

  /** Every key of the map comes from some label. */
  predicate KeysFromLabels(labels: seq<string>, m: map<string, string>)
    requires AllValid(labels)
  {
    forall k :: k in m ==> exists i :: 0 <= i < |labels| && KeyOf(labels[i]) == k
  }

  /** Each key maps to the value of the last label carrying it. */
  predicate LastWins(labels: seq<string>, m: map<string, string>)
    requires AllValid(labels)
  {
    forall i :: 0 <= i < |labels| && LastWithKey(labels, i) ==>
      KeyOf(labels[i]) in m && m[KeyOf(labels[i])] == ValueOf(labels[i])
  }

  /** Assigning never yields more keys than there are labels. */
  lemma {:induction false} AssignSize(labels: seq<string>)
    requires AllValid(labels)
    ensures |Assign(labels)| <= |labels|
    decreases |labels|
  {
    if |labels| > 0 {
      var n := |labels| - 1;
      assert AllValid(labels[..n]);
      AssignSize(labels[..n]);
      var m0 := Assign(labels[..n]);
      var k := KeyOf(labels[n]);
      assert Assign(labels).Keys == m0.Keys + {k};
      if k in m0.Keys {
        assert m0.Keys + {k} == m0.Keys;
      } else {
        assert |m0.Keys + {k}| == |m0.Keys| + 1;
      }
    }
  }

  /** The keys of the assigned map are exactly the labels' keys. */
  lemma {:induction false} AssignKeys(labels: seq<string>, key: string)
    requires AllValid(labels)
    ensures key in Assign(labels) <==> exists i :: 0 <= i < |labels| && KeyOf(labels[i]) == key
    decreases |labels|
  {
    if |labels| > 0 {
      var n := |labels| - 1;
      var init := labels[..n];
      assert AllValid(init);
      AssignKeys(init, key);
      if key in Assign(labels) && key != KeyOf(labels[n]) {
        var i :| 0 <= i < |init| && KeyOf(init[i]) == key;
        assert labels[i] == init[i];
      }
      if key !in Assign(labels) {
        forall i | 0 <= i < |labels|
          ensures KeyOf(labels[i]) != key
        {
          if i < n { assert labels[i] == init[i]; }
        }
      }
    }
  }

  /** The last label carrying a key decides its value. */
  lemma {:induction false} AssignLastWins(labels: seq<string>, i: nat)
    requires AllValid(labels) && i < |labels| && LastWithKey(labels, i)
    ensures KeyOf(labels[i]) in Assign(labels)
    ensures Assign(labels)[KeyOf(labels[i])] == ValueOf(labels[i])
    decreases |labels|
  {
    var n := |labels| - 1;
    if i < n {
      var init := labels[..n];
      assert AllValid(init);
      assert labels[i] == init[i];
      assert KeyOf(labels[n]) != KeyOf(labels[i]);
      forall j | i < j < |init|
        ensures KeyOf(init[j]) != KeyOf(init[i])
      {
        assert init[j] == labels[j];
      }
      AssignLastWins(init, i);
    }
  }

  /** The assigned map holds exactly the labels' keys, each with the value of the last label carrying it. */
  lemma {:induction false} AssignDescribes(labels: seq<string>)
    requires AllValid(labels)
    ensures KeysCovered(labels, Assign(labels))
    ensures KeysFromLabels(labels, Assign(labels))
    ensures LastWins(labels, Assign(labels))
    ensures |Assign(labels)| <= |labels|
  {
    AssignSize(labels);
    forall i | 0 <= i < |labels|
      ensures KeyOf(labels[i]) in Assign(labels)
    {
      AssignKeys(labels, KeyOf(labels[i]));
    }
    forall key | key in Assign(labels)
      ensures exists i :: 0 <= i < |labels| && KeyOf(labels[i]) == key
    {
      AssignKeys(labels, key);
    }
    forall i | 0 <= i < |labels| && LastWithKey(labels, i)
      ensures KeyOf(labels[i]) in Assign(labels) && Assign(labels)[KeyOf(labels[i])] == ValueOf(labels[i])
    {
      AssignLastWins(labels, i);
    }
  }

  /** `parseLabels`: no labels gives no map; otherwise every label must contain
      "=", the first one that does not is reported, and the map keeps for each
      key the value of the last label carrying it. */
  method ParseLabels(labels: seq<string>) returns (r: Result<Option<map<string, string>>, LabelError>)
    ensures |labels| == 0 ==> r == Success(None)
    ensures r.Failure? <==> !AllValid(labels)
    ensures r.Failure? ==> exists i :: 0 <= i < |labels| && r.error == InvalidLabel(labels[i])
                                       && !Valid(labels[i]) && AllValid(labels[..i])
    ensures r.Success? && |labels| > 0 ==> AllValid(labels) && r.value.Some? && |r.value.value| <= |labels|
    ensures r.Success? && |labels| > 0 ==> AllValid(labels) && r.value.Some? && KeysCovered(labels, r.value.value)
    ensures r.Success? && |labels| > 0 ==> AllValid(labels) && r.value.Some? && KeysFromLabels(labels, r.value.value)
    ensures r.Success? && |labels| > 0 ==> AllValid(labels) && r.value.Some? && LastWins(labels, r.value.value)
  {
    if |labels| == 0 {
      return Success(None);
    }
    var m: map<string, string> := map[];
    var i := 0;
    while i < |labels|
      invariant 0 <= i <= |labels|
      invariant AllValid(labels[..i])
      invariant m == Assign(labels[..i])
    {
      var l := labels[i];
      var parts := Strings.SplitAtFirst(l, '=');
      if parts.None? {
        return Failure(InvalidLabel(l));
      }
      assert labels[..i + 1] == labels[..i] + [l];
      assert labels[..i + 1][..i] == labels[..i];
      m := m[parts.value.0 := parts.value.1];
      i := i + 1;
    }
    assert labels[..i] == labels;
    AssignDescribes(labels);
    return Success(Some(m));
  }

  /** `int(ttl.Seconds())`: the duration in whole seconds, truncated toward zero. */
  function TtlSeconds(ttl: int): (secs: int)
    ensures ttl >= 0 ==> secs >= 0 && secs * NanosPerSecond <= ttl < (secs + 1) * NanosPerSecond
    ensures ttl < 0 ==> secs <= 0 && (secs - 1) * NanosPerSecond < ttl <= secs * NanosPerSecond
  {
    if ttl >= 0 then ttl / NanosPerSecond else -((-ttl) / NanosPerSecond)
  }

  lemma TtlSecondsExamples()
    ensures TtlSeconds(15 * 60 * NanosPerSecond) == 900
    ensures TtlSeconds(60 * 60 * NanosPerSecond) == 3600
    ensures TtlSeconds(30 * NanosPerSecond) == 30
    ensures TtlSeconds(90 * 60 * NanosPerSecond) == 5400
  {
  }

  /** The request sent to the create endpoint. */
  datatype CreateSessionRequest = CreateSessionRequest(
    selector: Listing.Selector,
    level: string,
    ttlSeconds: int,
    reason: string,
    labels: Option<map<string, string>>)

  datatype CreateError = ClientConfig(missing: Config.MissingSetting) | NoTarget | BadLabel(error: LabelError)

  /** No user, request, tenant or route was given. */
  predicate NoTargets(userId: string, requestId: string, tenantId: string, route: string) {
    userId == "" && requestId == "" && tenantId == "" && route == ""
  }

  /** `runCreate` up to the create call: missing settings are reported first,
      then a selector without any target, then a malformed label; otherwise the
      request carries the four targets, the TTL in whole seconds and the parsed labels. */
  method PrepareCreate(
    settings: Config.Settings, userId: string, requestId: string, tenantId: string, route: string,
    ttl: int, level: string, reason: string, labels: seq<string>)
    returns (r: Result<CreateSessionRequest, CreateError>)
    ensures Config.GetClient(settings).Failure? ==> r == Failure(ClientConfig(Config.GetClient(settings).error))
    ensures Config.GetClient(settings).Success? && NoTargets(userId, requestId, tenantId, route) ==> r == Failure(NoTarget)
    ensures r.Failure? && r.error.BadLabel? ==> !AllValid(labels)
    ensures Config.GetClient(settings).Success? && !NoTargets(userId, requestId, tenantId, route) && !AllValid(labels) ==>
              r.Failure? && r.error.BadLabel?
    ensures r.Failure? && r.error.BadLabel? ==>
              exists i :: 0 <= i < |labels| && r.error.error == InvalidLabel(labels[i])
                          && !Valid(labels[i]) && AllValid(labels[..i])
    ensures (Config.GetClient(settings).Success? && !NoTargets(userId, requestId, tenantId, route) && AllValid(labels))
              ==> r.Success?
    ensures r.Success? ==>
              && !NoTargets(userId, requestId, tenantId, route)
              && r.value.selector == Listing.Selector(userId, tenantId, requestId, route, map[])
              && r.value.ttlSeconds == TtlSeconds(ttl)
              && r.value.level == level && r.value.reason == reason
              && (|labels| == 0 ==> r.value.labels.None?)
              && (|labels| > 0 ==> r.value.labels.Some?)
    ensures r.Success? && |labels| > 0 ==> AllValid(labels) && r.value.labels.Some?
    ensures r.Success? && |labels| > 0 ==> KeysCovered(labels, r.value.labels.value)
    ensures r.Success? && |labels| > 0 ==> KeysFromLabels(labels, r.value.labels.value)
    ensures r.Success? && |labels| > 0 ==> LastWins(labels, r.value.labels.value)
  {
    var client := Config.GetClient(settings);
    if client.Failure? {
      return Failure(ClientConfig(client.error));
    }
    if NoTargets(userId, requestId, tenantId, route) {
      return Failure(NoTarget);
    }
    var parsed := ParseLabels(labels);
    if parsed.Failure? {
      return Failure(BadLabel(parsed.error));
    }
    var selector := Listing.Selector(userId, tenantId, requestId, route, map[]);
    return Success(CreateSessionRequest(selector, level, TtlSeconds(ttl), reason, parsed.value));
  }
}

=== FILE: strings.dfy ===
/**
 Text helpers the commands rely on: decimal rendering of integers (Go's `%d`),
 its inverse, splitting a string at the first occurrence of a separator
 (`strings.SplitN(s, sep, 2)`), and `strings.Join`.
 Go strings are byte strings; here each `char` stands for one byte.
 */
module Strings {
  import opened Wrappers

  predicate IsDigit(c: char) {
    '0' <= c <= '9'
  }

  predicate AllDigits(s: string) {
    forall i :: 0 <= i < |s| ==> IsDigit(s[i])
  }

  function DigitChar(d: nat): (c: char)
    requires d < 10
    ensures IsDigit(c)
  {
    "0123456789"[d]
  }

  function DigitValue(c: char): (d: nat)
    requires IsDigit(c)
    ensures d < 10
  {
    (c as int - '0' as int) as nat
  }

  lemma DigitRoundTrip(d: nat)
    requires d < 10
    ensures DigitValue(DigitChar(d)) == d
  {
  }

  /** Decimal digits of a natural number, most significant first, no leading zeros. */
  function NatToString(n: nat): (s: string)
    ensures |s| >= 1
    ensures AllDigits(s)
    ensures |s| > 1 ==> s[0] != '0'
    decreases n
  {
    if n < 10 then [DigitChar(n)] else NatToString(n / 10) + [DigitChar(n % 10)]
  }

  /** Go's `%d`: a minus sign for negative values, then the digits of the magnitude. */
  function IntToString(i: int): (s: string)
    ensures |s| >= 1
    ensures ' ' !in s
    ensures i >= 0 <==> s[0] != '-'
  {
    if i < 0 then "-" + NatToString(-i) else NatToString(i)
  }

  /** Value of a string of decimal digits. */
  function ParseNat(s: string): nat
    requires AllDigits(s)
    decreases |s|
  {
    if |s| == 0 then 0 else ParseNat(s[..|s| - 1]) * 10 + DigitValue(s[|s| - 1])
  }

  /** Value of an optionally minus-signed decimal numeral; None for anything else. */
  function ParseInt(s: string): Option<int> {
    if |s| > 0 && s[0] == '-' then
      (if |s| > 1 && AllDigits(s[1..]) then Some(0 - ParseNat(s[1..]) as int) else None)
    else if |s| > 0 && AllDigits(s) then Some(ParseNat(s))
    else None
  }

  lemma {:induction false} ParseNatToString(n: nat)
    ensures ParseNat(NatToString(n)) == n
    decreases n
  {
    var s := NatToString(n);
    if n < 10 {
      DigitRoundTrip(n);
    } else {
      ParseNatToString(n / 10);
      DigitRoundTrip(n % 10);
      assert s[..|s| - 1] == NatToString(n / 10);
    }
  }

  /** Reading back what `IntToString` wrote gives the original integer. */
  lemma IntToStringRoundTrip(i: int)
    ensures ParseInt(IntToString(i)) == Some(i)
  {
    if i < 0 {
      var digits := NatToString(-i);
      var s := "-" + digits;
      assert s == IntToString(i);
      assert s[1..] == digits;
      ParseNatToString(-i);
      assert ParseInt(s) == Some(0 - ParseNat(digits) as int);
    } else {
      var s := NatToString(i);
      assert s[0] != '-';
      ParseNatToString(i);
      assert ParseInt(s) == Some(ParseNat(s) as int);
    }
  }

  /** `strings.SplitN(s, [sep], 2)` when it yields two parts: the text before the
      first `sep` and everything after it (which may contain `sep` again). */
  function SplitAtFirst(s: string, sep: char): (r: Option<(string, string)>)
    ensures r.Some? <==> sep in s
    ensures r.Some? ==> sep !in r.value.0 && s == r.value.0 + [sep] + r.value.1
    decreases |s|
  {
    if |s| == 0 then None
    else if s[0] == sep then Some(([], s[1..]))
    else match SplitAtFirst(s[1..], sep)
      case None => None
      case Some(p) => Some(([s[0]] + p.0, p.1))
  }

  /** Splitting a joined pair at the separator recovers the pair whenever the
      first part does not itself contain the separator. */
  lemma {:induction false} SplitAtFirstOfJoined(a: string, sep: char, b: string)
    requires sep !in a
    ensures SplitAtFirst(a + [sep] + b, sep) == Some((a, b))
    decreases |a|
  {
    if |a| > 0 {
      var s := a + [sep] + b;
      SplitAtFirstOfJoined(a[1..], sep, b);
      assert s[0] == a[0] && a[0] != sep;
      assert s[1..] == a[1..] + [sep] + b;
      assert [a[0]] + a[1..] == a;
    } else {
      assert a + [sep] + b == [sep] + b;
    }
  }

  /** `strings.Join(parts, sep)`. */
  function Join(parts: seq<string>, sep: string): string
    decreases |parts|
  {
    if |parts| == 0 then ""
    else if |parts| == 1 then parts[0]
    else parts[0] + sep + Join(parts[1..], sep)
  }

  /** A character present in some part survives joining. */
  lemma {:induction false} JoinKeeps(parts: seq<string>, sep: string, i: nat, c: char)
    requires i < |parts| && c in parts[i]
    ensures c in Join(parts, sep)
    decreases |parts|
  {
    if |parts| > 1 && i > 0 {
      JoinKeeps(parts[1..], sep, i - 1, c);
      var rest := Join(parts[1..], sep);
      assert Join(parts, sep) == parts[0] + sep + rest;
      var k :| 0 <= k < |rest| && rest[k] == c;
      assert Join(parts, sep)[|parts[0]| + |sep| + k] == c;
    } else if |parts| > 1 {
      var k :| 0 <= k < |parts[0]| && parts[0][k] == c;
      assert Join(parts, sep)[k] == c;
    }
  }
}

=== FILE: wrappers.dfy ===
/** Option and Result types shared by every module of the model. */
module Wrappers {

  /** An optional value: Go's nil pointer, nil map or "not present". */
  datatype Option<+T> = None | Some(value: T)

  /** A value or an error: Go's `(T, error)` return pair. */
  datatype Result<+T, +E> = Success(value: T) | Failure(error: E)
}
